=== FILE: README.md ===
# Xenon View Java SDK — a Dafny model of the journey log and its transport

The Xenon View SDK records a user's *journey*, the page views, funnel
stages, outcomes and free-form events of one session, in an in-memory log
shared by every SDK instance. `commit()` sends that log to the Xenon View
service. The commit is optimistic: the log is emptied before the request
goes out. If the request fails, the saved snapshot is merged back in front
of whatever was logged while the request was in flight.

The model covers:

- **Journey log** (`journey.dfy`, module `Journey`):
  - the records `pageView`, `funnel`, `outcome` and `event` build;
  - the tail-only duplicate rule of `journeyAdd`;
  - `reset`/`restore` and their merge;
  - the payloads `commit` and `deanonymize` send.
- **Xenon** (`xenon.dfy`, module `XenonSdk`): a class whose static fields
  (id, journey, url, key, self-signed flag) live in one shared `Statics`
  object.
  - `journeyAdd` bumps a counter on repeats.
  - `commit` checks the key and is split into the hand-off to the journey
    API (`BeginCommit`) and the settling of its future (`CompleteCommit`).
- **View** (`view.dfy`, module `ViewSdk`): the older entry point.
  - The id and journey are shared; key, url and flag belong to the instance.
  - Repeats are dropped without a count.
  - There is no key check.
  - Failures are answered with a Json that holds the error message.
- **ApiBase and the three endpoints** (`api_base.dfy`, `journey_api.dfy`,
  `heartbeat_api.dfy`, `deanonymize_api.dfy`):
  - the props and their defaults;
  - `fetch(data)`: url, certificate flag, body `{name?, parameters}` and
    headers with the bearer token;
  - each endpoint's projection of the payload;
  - rejection before dispatch.
- **JsonFetcher** (`json_fetcher.dfy`, module `HttpFetch`):
  - header building;
  - the POST/GET choice;
  - the self-signed client fallback;
  - the classification of a reply into success, client error or other error.
- **Supporting modules**: `wrappers.dfy` holds `Option`/`Result`.
  `json_data.dfy` holds org.json values, getters and error messages, and
  Java's `intValue()` and 32-bit wrap-around.

How Java is represented:

- JSON objects are values (`map<string, Value>`).
- A method that throws, or a future that completes exceptionally, yields
  `Result.Failure`.
- The clock is a `now` parameter, and the random UUID is the id the statics
  are created with.
- The HTTP client is an opaque value, and sending is appending to a log of
  calls.

Counting repeats: one might expect a repeated record to increment the
`count` of the journey's tail. In `Xenon.journeyAdd` the incremented count
is written on the incoming record, which is then dropped. So `journeyAdd`
never writes a count into the stored journey
(`XenonSdk.RepeatCountNeverStored`). A count the caller put on an event
itself is kept like any other field. The exception is aliasing: when a
record already stored in the journey is passed to `event` again and
repeats the tail, the count is written on that stored object; see
"## Left out".

## Model

| member | source | states |
|---|---|---|
| `JsonData.IntValue` | lib/src/main/java/xenon/view/sdk/Xenon.java:164 | reading `count` as an int truncates toward zero and saturates at the 32-bit bounds |
| `JsonData.Wrap32` | lib/src/main/java/xenon/view/sdk/Xenon.java:165 | `count+1` stays in int range, is unchanged in range and is congruent to the true sum modulo 2^32 |
| `Journey.PageViewRecord` | lib/src/main/java/xenon/view/sdk/Xenon.java:119-124 | a page view is a loggable entry with exactly two keys: category "Page View" and the page as action |
| `Journey.FunnelRecord` | lib/src/main/java/xenon/view/sdk/Xenon.java:126-131 | a funnel stage is a loggable entry with exactly two keys: its stage and action, so no category |
| `Journey.OutcomeRecord` | lib/src/main/java/xenon/view/sdk/Xenon.java:133-138 | an outcome is a loggable entry with exactly two keys: its outcome and action, so neither category nor funnel |
| `Journey.NormalizeEvent` | lib/src/main/java/xenon/view/sdk/Xenon.java:140-150 | every event becomes a loggable entry; existing fields are kept; a missing action becomes the event itself; category "Event" is added exactly when none of category/funnel/outcome is present |
| `Journey.Stamp` | lib/src/main/java/xenon/view/sdk/Xenon.java:154 | the record gains (or overwrites) only its timestamp |
| `Journey.IsRepeat` | lib/src/main/java/xenon/view/sdk/Xenon.java:159-161 | a repeat has the same action as the tail; a record with neither funnel nor category (an outcome) is never a repeat |
| `Journey.Append` | lib/src/main/java/xenon/view/sdk/Xenon.java:152-174 | an append grows the journey by at most one, never changes earlier records, adds only the stamped record, and keeps every record loggable |
| `Journey.AppendToEmpty` | lib/src/main/java/xenon/view/sdk/Xenon.java:170-172 | the first append gives exactly one record carrying the log's timestamp |
| `Journey.RepeatIsDropped` | lib/src/main/java/xenon/view/sdk/Xenon.java:159-166 | a record of the tail's kind with the tail's action leaves the journey unchanged |
| `Journey.NonRepeatIsAppended` | lib/src/main/java/xenon/view/sdk/Xenon.java:156-168 | any other record becomes the new last element after the unchanged journey |
| `Journey.AppendOnlySeesTail` | lib/src/main/java/xenon/view/sdk/Xenon.java:156-160 | an append depends only on the last record: a prefix passes through untouched |
| `Journey.AppendAll` | lib/src/main/java/xenon/view/sdk/Xenon.java:152-174 | a run of appends keeps the old journey as a prefix, adds at most one record per call and keeps every record loggable |
| `Journey.AppendAllOnlySeesTail` | lib/src/main/java/xenon/view/sdk/Xenon.java:156-160 | a whole run of appends after a non-empty suffix never touches the prefix |
| `Journey.Merge` | lib/src/main/java/xenon/view/sdk/Xenon.java:189-204 | restore gives the snapshot followed by the live journey, also when the live journey is empty |
| `Journey.Concat` | lib/src/main/java/xenon/view/sdk/Xenon.java:192-201 | the two copy loops build exactly snapshot followed by live journey |
| `Journey.MergeKeepsEverything` | lib/src/main/java/xenon/view/sdk/Xenon.java:189-204 | no record is lost or duplicated by restore; saved records come first, live ones after |
| `Journey.RestoreTwiceIsRestore` | lib/src/main/java/xenon/view/sdk/Xenon.java:203 | restore clears the snapshot, so a second restore in a row changes nothing |
| `Journey.ResetThenRestore` | lib/src/main/java/xenon/view/sdk/Xenon.java:184-204 | reset then restore with nothing logged between gives back the journey |
| `Journey.FailedCommitMatchesUninterrupted` | lib/src/main/java/xenon/view/sdk/Xenon.java:214-223 | a failed commit ends with the same journey as a session that never committed, provided the first record logged in flight is not a repeat of the snapshot's tail (no proviso when either is empty) |
| `Journey.FailedCommitKeepsRepeatOfSnapshotTail` | lib/src/main/java/xenon/view/sdk/Xenon.java:156-160 | records logged in flight are never compared with the snapshot, so a repeat of its tail survives the merge |
| `Journey.RestoreBeforeResetAsWritten` | lib/src/main/java/xenon/view/sdk/Xenon.java:189-204 | with the snapshot still null, restore throws on a non-empty journey and stores null on an empty one |
| `Journey.RestoreAsWrittenAfterReset` | lib/src/main/java/xenon/view/sdk/Xenon.java:189-204 | once reset has stored a snapshot, restore as written agrees with `Merge` |
| `Journey.RestoreWithoutResetKeepsJourney` | lib/src/main/java/xenon/view/sdk/Xenon.java:189-204 | with the snapshot starting empty, a restore before any reset leaves the journey as it is |
| `Journey.JourneyValue` | lib/src/main/java/xenon/view/sdk/Xenon.java:209 | the journey is sent as an array of the records, in order |
| `Journey.JourneyValueRoundTrip` | lib/src/main/java/xenon/view/sdk/Xenon.java:209 | the sent array reads back as exactly the journey |
| `Journey.CommitPayload` | lib/src/main/java/xenon/view/sdk/Xenon.java:207-212 | commit sends exactly id, journey, token, timestamp and the self-signed flag |
| `Journey.DeanonymizePayload` | lib/src/main/java/xenon/view/sdk/Xenon.java:227-232 | deanonymize sends exactly id, person, token, timestamp and the self-signed flag |
| `ApiBase.FromProps` | lib/src/main/java/xenon/view/sdk/api/ApiBase.java:32-47 | each absent prop takes its default: "ApiBase", "POST", content-type json, "", the Xenon View url, false, false |
| `ApiBase.Params` | lib/src/main/java/xenon/view/sdk/api/ApiBase.java:58-60 | the base shaping never rejects and hands the payload on unchanged; what fetch then sends is stated by `ApiBase.BaseFetchSendsPayload` |
| `ApiBase.Path` | lib/src/main/java/xenon/view/sdk/api/ApiBase.java:62-64 | the base path is the configured one, whatever the payload; the url fetch sends is stated by `ApiBase.BaseFetchSendsPayload` |
| `ApiBase.Fetch` | lib/src/main/java/xenon/view/sdk/api/ApiBase.java:67-109 | an accepted request goes to apiUrl + "/" + path with the configured method |
| `ApiBase.Settle` | lib/src/main/java/xenon/view/sdk/api/ApiBase.java:82-108 | a rejection before dispatch is the outcome; otherwise the fetcher's result is |
| `ApiBase.FetchSucceedsIff` | lib/src/main/java/xenon/view/sdk/api/ApiBase.java:67-109 | fetch dispatches exactly when the flag is boolean, shaping succeeds (when a body is built) and an authenticated endpoint has a non-empty token |
| `ApiBase.ShaperFailureWins` | lib/src/main/java/xenon/view/sdk/api/ApiBase.java:82-88 | a failing params(data) rejects with that same error, before the token is looked at |
| `ApiBase.MissingTokenRejected` | lib/src/main/java/xenon/view/sdk/api/ApiBase.java:98-106 | an authenticated endpoint with no or an empty token rejects with "No token and authenticated!" |
| `ApiBase.FetchShape` | lib/src/main/java/xenon/view/sdk/api/ApiBase.java:67-109 | url, method, the flag copied iff present, a body iff payload non-empty or name not skipped, name iff not skipped, parameters = params(data), headers = configured ones plus the bearer token iff authenticated |
| `ApiBase.BaseFetchSendsPayload` | lib/src/main/java/xenon/view/sdk/api/ApiBase.java:58-88 | with the base params and path, every accepted request sends the payload itself as parameters, to apiUrl + "/" + path, the same url for every payload |
| `JourneyApi.Config` | lib/src/main/java/xenon/view/sdk/api/JourneyApi.java:18-25 | the journey endpoint is "ApiJourney" at path "journey", authenticated, default headers |
| `JourneyApi.Params` | lib/src/main/java/xenon/view/sdk/api/JourneyApi.java:27-37 | shaping fails only with a missing or mistyped id or timestamp or a non-array journey; a shaped record has uuid and timestamp and no key besides uuid, timestamp, journey |
| `JourneyApi.ParamsShape` | lib/src/main/java/xenon/view/sdk/api/JourneyApi.java:27-37 | shaping succeeds iff id is a string, timestamp a number and journey (if any) an array; the result is exactly {uuid = id, timestamp, journey iff given} |
| `JourneyApi.MissingFieldsFail` | lib/src/main/java/xenon/view/sdk/api/JourneyApi.java:31-32 | a missing id or timestamp fails shaping with org.json's not-found error |
| `JourneyApi.FetchShape` | lib/src/main/java/xenon/view/sdk/api/JourneyApi.java:15-37 | an accepted request is a named POST to apiUrl/journey with the bearer token |
| `JourneyApi.ShapingFailureRejects` | lib/src/main/java/xenon/view/sdk/api/JourneyApi.java:27-37 | a payload that fails shaping is rejected with that error before dispatch |
| `HeartbeatApi.Config` | lib/src/main/java/xenon/view/sdk/api/HeartbeatApi.java:18-25 | the heartbeat endpoint is "ApiHeartbeat" at path "heartbeat", authenticated |
| `HeartbeatApi.Params` | lib/src/main/java/xenon/view/sdk/api/HeartbeatApi.java:27-38 | shaping fails only on id, timestamp or a mistyped journey, platform or tags; a shaped record has uuid and timestamp and no key besides uuid, timestamp, journey, platform, tags |
| `HeartbeatApi.ParamsShape` | lib/src/main/java/xenon/view/sdk/api/HeartbeatApi.java:27-38 | shaping succeeds iff every present field has its type; the result is uuid, timestamp and exactly the journey/platform/tags given, unchanged |
| `HeartbeatApi.MissingFieldsFail` | lib/src/main/java/xenon/view/sdk/api/HeartbeatApi.java:31-32 | a missing id or timestamp fails shaping |
| `HeartbeatApi.FetchShape` | lib/src/main/java/xenon/view/sdk/api/HeartbeatApi.java:15-38 | an accepted request is a named POST to apiUrl/heartbeat with the bearer token |
| `DeanonymizeApi.Config` | lib/src/main/java/xenon/view/sdk/api/DeanonymizeApi.java:20-27 | the deanonymize endpoint is "ApiDeanonymize" at path "deanonymize", authenticated |
| `DeanonymizeApi.Params` | lib/src/main/java/xenon/view/sdk/api/DeanonymizeApi.java:29-37 | shaping fails only on a missing or mistyped id, timestamp or person; a shaped record has exactly uuid, timestamp, person |
| `DeanonymizeApi.ParamsShape` | lib/src/main/java/xenon/view/sdk/api/DeanonymizeApi.java:29-37 | shaping succeeds iff id, timestamp and person are present and typed; the result is exactly {uuid, timestamp, person} with person unchanged |
| `DeanonymizeApi.MissingPersonRejected` | lib/src/main/java/xenon/view/sdk/api/DeanonymizeApi.java:35 | without a person the request is rejected before dispatch |
| `DeanonymizeApi.FetchShape` | lib/src/main/java/xenon/view/sdk/api/DeanonymizeApi.java:15-37 | an accepted request is a named POST to apiUrl/deanonymize with the bearer token |
| `HttpFetch.Classify` | lib/src/main/java/xenon/view/sdk/api/fetch/JsonFetcher.java:128-145 | 200..399 is success, 400..499 a client error, every other code an other error; the three cover all codes |
| `HttpFetch.ReadBody` | lib/src/main/java/xenon/view/sdk/api/fetch/JsonFetcher.java:121-126 | a body reads iff it is present and readable; a null body fails with "No response body.", a failing read with its own error |
| `HttpFetch.Complete` | lib/src/main/java/xenon/view/sdk/api/fetch/JsonFetcher.java:76-94 | a transport failure rejects with its own error; a status outside 200..399 always rejects; inside it, the future resolves iff the body reads |
| `HttpFetch.CompleteSucceedsIff` | lib/src/main/java/xenon/view/sdk/api/fetch/JsonFetcher.java:84-93 | the future resolves iff the status is 200..399 and the body is readable, and then wraps the body text unchanged |
| `HttpFetch.ClientErrorCarriesBody` | lib/src/main/java/xenon/view/sdk/api/fetch/JsonFetcher.java:131-137 | a 4xx fails with exactly the body text as message |
| `HttpFetch.MissingBody` | lib/src/main/java/xenon/view/sdk/api/fetch/JsonFetcher.java:121-126 | a null body fails with "No response body." on the success and 4xx paths |
| `HttpFetch.OtherStatusCarriesMessage` | lib/src/main/java/xenon/view/sdk/api/fetch/JsonFetcher.java:139-144 | any other status fails with the status message, whatever the body |
| `HttpFetch.TransportFailurePassesThrough` | lib/src/main/java/xenon/view/sdk/api/fetch/JsonFetcher.java:78-81 | a transport failure rejects with the same error |
| `HttpFetch.AddHeaders` | lib/src/main/java/xenon/view/sdk/api/fetch/JsonFetcher.java:147-157 | the headers so far are kept and one header is added per entry, with its value, every entry once |
| `HttpFetch.BuildRequest` | lib/src/main/java/xenon/view/sdk/api/fetch/JsonFetcher.java:54-74 | accept json first, then every request header; POST sends the body, any other method is a GET; a POST without body fails on "body" |
| `HttpFetch.JsonFetcher.constructor` | lib/src/main/java/xenon/view/sdk/api/fetch/JsonFetcher.java:30-32 | a fetcher starts on the given client with nothing sent |
| `HttpFetch.JsonFetcher.Fetch` | lib/src/main/java/xenon/view/sdk/api/fetch/JsonFetcher.java:38-96 | the client is replaced only when the flag is true and rebuilding succeeds; a built request is enqueued exactly once on the current client |
| `HttpFetch.SelfSignedFallback` | lib/src/main/java/xenon/view/sdk/api/fetch/JsonFetcher.java:44-52 | for any request fetch accepts (a POST with a body, or any other method), when rebuilding the client throws the original client stays, earlier calls are kept, and the built request is sent once on the original client |
| `XenonSdk.Statics.constructor` | lib/src/main/java/xenon/view/sdk/Xenon.java:25-29 | the shared state starts with the drawn id, an empty journey, the default url, no key and no self-signed certificates |
| `XenonSdk.Bump` | lib/src/main/java/xenon/view/sdk/Xenon.java:164-165 | the repeat counter fails only on a non-numeric count, adds only "count", and stays an int |
| `XenonSdk.BumpCounts` | lib/src/main/java/xenon/view/sdk/Xenon.java:164-165 | first repeat gives 2, a count k gives k+1, the largest int wraps to the smallest |
| `XenonSdk.RepeatCountNeverStored` | lib/src/main/java/xenon/view/sdk/Xenon.java:159-166 | after two identical page views the journey has one record without a count; the count 2 lands on the dropped record |
| `XenonSdk.Xenon.constructor` | lib/src/main/java/xenon/view/sdk/Xenon.java:34-37 | a new instance shares the statics and has an empty snapshot |
| `XenonSdk.Xenon.WithKey` | lib/src/main/java/xenon/view/sdk/Xenon.java:39-64 | the keyed overloads that go through Xenon(apiKey) (39-43, 51-64) set the shared key, put the shared url back to the default unless one is given, and set the flag only when given; Xenon(apiKey, journeyApi) at 45-49 is `XenonSdk.Xenon.WithKeyAndApi` |
| `XenonSdk.Xenon.WithKeyAndApi` | lib/src/main/java/xenon/view/sdk/Xenon.java:45-49 | Xenon(apiKey, journeyApi) sets the shared key and keeps the shared url and self-signed flag as they were |
| `XenonSdk.Xenon.SetId` | lib/src/main/java/xenon/view/sdk/Xenon.java:100-103 | id(x) returns x and makes x the shared id, nothing else changes |
| `XenonSdk.Xenon.Init` | lib/src/main/java/xenon/view/sdk/Xenon.java:110-113 | init overwrites url and key only with non-empty values |
| `XenonSdk.Xenon.InitKey` | lib/src/main/java/xenon/view/sdk/Xenon.java:115-117 | init(key) never touches the url |
| `XenonSdk.Xenon.JourneyAdd` | lib/src/main/java/xenon/view/sdk/Xenon.java:152-174 | the journey changes as `Append` says; the caller's record comes back stamped, and counted on a repeat; a non-numeric count on a repeat fails |
| `XenonSdk.Xenon.PageView` | lib/src/main/java/xenon/view/sdk/Xenon.java:119-124 | the page view record is appended by the journey rule; settings unchanged |
| `XenonSdk.Xenon.Funnel` | lib/src/main/java/xenon/view/sdk/Xenon.java:126-131 | the funnel record is appended by the journey rule |
| `XenonSdk.Xenon.Outcome` | lib/src/main/java/xenon/view/sdk/Xenon.java:133-138 | the outcome record is appended by the journey rule |
| `XenonSdk.Xenon.Event` | lib/src/main/java/xenon/view/sdk/Xenon.java:140-150 | the normalised event is appended; the call fails only on a repeat carrying a non-numeric count |
| `XenonSdk.Xenon.Reset` | lib/src/main/java/xenon/view/sdk/Xenon.java:184-187 | the journey becomes this instance's snapshot and the shared journey is emptied |
| `XenonSdk.Xenon.Restore` | lib/src/main/java/xenon/view/sdk/Xenon.java:189-204 | the journey becomes snapshot then live journey; the snapshot is cleared |
| `XenonSdk.Xenon.BeginCommit` | lib/src/main/java/xenon/view/sdk/Xenon.java:206-215 | without a key it fails with "API Key not set." and changes nothing; otherwise it resets and hands the pre-reset journey to the journey API |
| `XenonSdk.Xenon.CompleteCommit` | lib/src/main/java/xenon/view/sdk/Xenon.java:215-223 | the outcome is passed on; a failure restores the journey, a success leaves it |
| `XenonSdk.Xenon.Deanonymize` | lib/src/main/java/xenon/view/sdk/Xenon.java:226-235 | changes nothing; without a key it fails with "API Key not set.", otherwise it hands id, person and settings to the deanonymize API |
| `XenonSdk.CommitRequestShape` | lib/src/main/java/xenon/view/sdk/Xenon.java:206-215 | with a key the commit request is never rejected before dispatch and posts exactly {uuid, timestamp, journey} with the bearer key and the flag |
| `XenonSdk.DeanonymizeRequestShape` | lib/src/main/java/xenon/view/sdk/Xenon.java:226-235 | with a key the deanonymize request is never rejected before dispatch and posts exactly {uuid, timestamp, person} |
| `XenonSdk.SharedId` | lib/src/main/java/xenon/view/sdk/Xenon.java:95-103 | an id set through one instance is the id every other instance reads |
| `XenonSdk.FailedCommitKeepsJourney` | lib/src/main/java/xenon/view/sdk/Xenon.java:206-223 | commit, a page view in flight, then failure: the journey is the old one with the page view appended |
| `ViewSdk.Statics.constructor` | lib/src/main/java/xenon/view/sdk/View.java:23-24 | the shared state starts with the drawn id and an empty journey |
| `ViewSdk.Recovered` | lib/src/main/java/xenon/view/sdk/View.java:191-194 | a success is answered with its Json, a failure with a Json holding the error message |
| `ViewSdk.View.constructor` | lib/src/main/java/xenon/view/sdk/View.java:32-52 | key as given, url default unless given, flag false unless given, empty snapshot |
| `ViewSdk.View.SetId` | lib/src/main/java/xenon/view/sdk/View.java:83-86 | id(x) returns x and makes x the shared id |
| `ViewSdk.View.Init` | lib/src/main/java/xenon/view/sdk/View.java:93-96 | init overwrites this instance's url and key only with non-empty values |
| `ViewSdk.View.JourneyAdd` | lib/src/main/java/xenon/view/sdk/View.java:131-150 | the journey changes exactly as `Append` says: a repeat is dropped with no count |
| `ViewSdk.View.PageView` | lib/src/main/java/xenon/view/sdk/View.java:98-103 | the page view record is appended by the journey rule |
| `ViewSdk.View.Funnel` | lib/src/main/java/xenon/view/sdk/View.java:105-110 | the funnel record is appended by the journey rule |
| `ViewSdk.View.Outcome` | lib/src/main/java/xenon/view/sdk/View.java:112-117 | the outcome record is appended by the journey rule |
| `ViewSdk.View.Event` | lib/src/main/java/xenon/view/sdk/View.java:119-129 | the normalised event is appended by the journey rule |
| `ViewSdk.View.Reset` | lib/src/main/java/xenon/view/sdk/View.java:160-163 | the journey becomes the snapshot and the shared journey is emptied |
| `ViewSdk.View.Restore` | lib/src/main/java/xenon/view/sdk/View.java:165-180 | the journey becomes snapshot then live journey; the snapshot is cleared |
| `ViewSdk.View.BeginCommit` | lib/src/main/java/xenon/view/sdk/View.java:182-190 | always resets and hands the pre-reset journey with this instance's key to the journey API |
| `ViewSdk.View.CompleteCommit` | lib/src/main/java/xenon/view/sdk/View.java:190-194 | a failure restores the journey and is answered with its message; a success is passed on and changes nothing |
| `ViewSdk.View.Deanonymize` | lib/src/main/java/xenon/view/sdk/View.java:197-206 | changes nothing; builds the deanonymize request and answers with the delivered Json or the failure's message |
| `ViewSdk.EmptyKeyCommitRejected` | lib/src/main/java/xenon/view/sdk/View.java:182-190 | without a key the journey API rejects the commit with "No token and authenticated!" before dispatch |
| `ViewSdk.CommitWithoutKey` | lib/src/main/java/xenon/view/sdk/View.java:182-194 | a commit without a key ends with the journey exactly as before and an empty snapshot |
| `ViewSdk.SharedJourney` | lib/src/main/java/xenon/view/sdk/View.java:24 | what one instance logs is the journey of every other instance |

## Left out

- Concurrency: the `volatile` statics, other threads appending while a
  commit is in flight, and the asynchronous callbacks. A commit is two
  sequential steps, `BeginCommit` and `CompleteCommit`, with any logging in
  between.
- Aliasing of JSON objects. Records are values. These effects are not
  captured:
  - the caller's object being stamped in place;
  - the same object being logged twice;
  - a caller mutating the array returned by `journey()`.
- Java reference comparison of the two `action` values in `journeyAdd`. The
  model compares values, which is what equal literals give.
- `Journey.Append`: two distinct but equal action strings are a repeat in
  the model and not a repeat under reference comparison. The same holds for
  `event` calls without an action (Xenon.java:141-143, View.java:120-122):
  each call stores a fresh object as its action, so in the source two equal
  action-less events are never a repeat, while the model drops the second.
- `XenonSdk.RepeatCountNeverStored`: covers records that are not already
  in the journey. When a stored record is passed to `event` again and
  repeats the tail, the source's `count` update (Xenon.java:164-165) lands
  on that stored object through aliasing. Records are values here, so the
  model does not capture that.
- `XenonSdk.Xenon.CompleteCommit`: the failure is passed on as it is. In the
  source it is wrapped in a `CompletionException`.
- The synchronous throws become `Result.Failure`, the same as a rejected
  future. These are "API Key not set.", a non-boolean certificate flag or
  token type, a non-numeric `count` read by `getInt` on a repeat
  (Xenon.java:164, `XenonSdk.Bump`), and a POST without body in the
  fetcher.
- The clock (`System.currentTimeMillis() / 1000.0`) and the UUID source are
  parameters: `now`, and the id passed to `Statics`.
- The OkHttp and JSSE plumbing: the trust-all trust manager, SSL context,
  `Request.Builder`, `enqueue` and callbacks. Rebuilding the client is an
  outcome passed to `JsonFetcher.Fetch`. Sending is appending a call to
  `enqueued`. A reply is one of transport failure, or a status with body and
  message.
- The fetcher's console message when the self-signed client cannot be
  built (I/O).
- Parsing JSON text. `Json.to` and the serialisation of the body are not
  modelled; a response body is kept as text.
- org.json's conversion of strings: numeric strings in `getInt` and
  `getDouble`, and the strings "true" and "false" (any case) in
  `getBoolean`. Only the value kinds themselves are accepted.
- A `null` person, id or key, and a `null` props entry other than "absent".
- The injected API instances and fetchers of the constructor overloads, and
  the `Api`/`Fetchable` factories. The endpoints are called directly.
- The `journey()` and `id()` getters are plain reads (`Id()`), and
  `selfSignedAllowed()` is `SelfSignedAllowed()`. Neither has a contract.
- Numbers are reals. Integer, Long and Double are not distinguished.
- URL validation by the HTTP client.

## Findings

| source | as written | input that shows it | evidently intended | confidence | as-written member | corrected member |
|---|---|---|---|---|---|---|
| lib/src/main/java/xenon/view/sdk/Xenon.java:32 | `restoreJourney` starts out null and only `reset()` sets it, so `restore()` before any reset dereferences null (non-empty journey) or stores null as the shared journey (empty journey), after which every `journeyAdd` fails; View.java:29 has the same field | `new Xenon().pageView("a")` then `restore()` throws NullPointerException; `restore()` on an empty journey makes the next `pageView` throw | the snapshot starts empty, so a restore before any reset keeps the journey as it is | not executed | `Journey.RestoreBeforeResetAsWritten` | `Journey.RestoreWithoutResetKeepsJourney` |

=== FILE: api_base.dfy ===
/** ApiBase: an endpoint's fixed configuration and fetch(data), which turns
    a payload into the parameters handed to the JSON fetcher, or rejects it
    before anything is sent. */
module ApiBase {
  import opened Wrappers
  import opened JsonData

  const DefaultName := "ApiBase"
  const DefaultMethod := "POST"
  const DefaultApiUrl := "https://app.xenonview.com"
  const DefaultHeaders: map<string, string> := map["content-type" := "application/json"]
  const NoToken := Thrown("No token and authenticated!")

  /** The constructor's props map; an absent prop is None. */
  datatype Props = Props(
    name: Option<string>,
    httpMethod: Option<string>,
    headers: Option<map<string, string>>,
    url: Option<string>,
    apiUrl: Option<string>,
    skipName: Option<bool>,
    authenticated: Option<bool>)

  /** The final fields of an ApiBase. */
  datatype Config = Config(
    name: string,
    httpMethod: string,
    headers: map<string, string>,
    path: string,
    apiUrl: string,
    skipName: bool,
    authenticated: bool)

  /** The constructor: each absent prop takes its default. */
  function FromProps(props: Props): (c: Config)
    ensures c.name == (if props.name.Some? then props.name.value else DefaultName)
    ensures c.httpMethod == (if props.httpMethod.Some? then props.httpMethod.value else DefaultMethod)
    ensures c.headers == (if props.headers.Some? then props.headers.value else DefaultHeaders)
    ensures c.path == (if props.url.Some? then props.url.value else "")
    ensures c.apiUrl == (if props.apiUrl.Some? then props.apiUrl.value else DefaultApiUrl)
    ensures c.skipName <==> props.skipName == Some(true)
    ensures c.authenticated <==> props.authenticated == Some(true)
  {
    Config(
      props.name.GetOr(DefaultName),
      props.httpMethod.GetOr(DefaultMethod),
      props.headers.GetOr(DefaultHeaders),
      props.url.GetOr(""),
      props.apiUrl.GetOr(DefaultApiUrl),
      props.skipName.GetOr(false),
      props.authenticated.GetOr(false))
  }

  /** The body posted to the server: {name?, parameters}. */
  datatype Body = Body(name: Option<string>, parameters: Record)

  /** What fetch(data) hands to the JSON fetcher. */
  datatype FetchParameters = FetchParameters(
    url: string,
    httpMethod: string,
    ignoreCertificateErrors: Option<bool>,
    body: Option<Body>,
    requestHeaders: map<string, string>)

  /** The base params(data), which subclasses override: the payload itself. */
  function Params(data: Record): (r: Result<Record, Error>)
    ensures r.Success? && r.value == data
  {
    Success(data)
  }

  /** path(data): the configured path, whatever the payload. */
  function Path(c: Config, data: Record): (p: string)
    ensures p == c.path
  {
    c.path
  }

  /** The ignore-certificate-errors flag, copied when present. */
  function IgnoreFlag(data: Record): Result<Option<bool>, Error> {
    if "ignore-certificate-errors" !in data then Success(None)
    else var b :- GetBoolean(data, "ignore-certificate-errors"); Success(Some(b))
  }

  /** The body, present when the payload is non-empty or the name is not skipped. */
  function ShapeBody(c: Config, params: Record -> Result<Record, Error>, data: Record): Result<Option<Body>, Error> {
    if |data| != 0 || !c.skipName then
      var parameters :- params(data);
      Success(Some(Body(if c.skipName then None else Some(c.name), parameters)))
    else Success(None)
  }

  /** The request headers: the configured ones, plus a bearer token when the
      endpoint is authenticated. A missing or empty token rejects. */
  function RequestHeaders(c: Config, data: Record): Result<map<string, string>, Error> {
    if !c.authenticated then Success(c.headers)
    else if "token" !in data then Failure(NoToken)
    else
      var token :- GetString(data, "token");
      if token == "" then Failure(NoToken)
      else Success(c.headers["authorization" := "Bearer " + token])
  }

  /** fetch(data) with the endpoint's params(data) as `params`. Success means
      the fetcher is called once, with the value; a failure means it is never
      called. */
  function Fetch(c: Config, params: Record -> Result<Record, Error>, data: Record): (r: Result<FetchParameters, Error>)
    ensures r.Success? ==> r.value.url == c.apiUrl + "/" + c.path && r.value.httpMethod == c.httpMethod
  {
    var url := c.apiUrl + "/" + Path(c, data);
    var ignore :- IgnoreFlag(data);
    var body :- ShapeBody(c, params, data);
    var headers :- RequestHeaders(c, data);
    Success(FetchParameters(url, c.httpMethod, ignore, body, headers))
  }

  /** How the future returned by fetch(data) settles: a rejection before
      dispatch wins, otherwise it is whatever the fetcher delivered. */
  function Settle(request: Result<FetchParameters, Error>, delivered: Result<Json, Error>): (r: Result<Json, Error>)
    ensures request.Failure? ==> r == Failure(request.error)
    ensures request.Success? ==> r == delivered
  {
    if request.Failure? then Failure(request.error) else delivered
  }

  /*** Properties of fetch ***/

  /** The request succeeds exactly when the certificate flag (if any) is a
      boolean, the body (if built) was shaped, and an authenticated endpoint
      got a non-empty string token. */
  lemma FetchSucceedsIff(c: Config, params: Record -> Result<Record, Error>, data: Record)
    ensures Fetch(c, params, data).Success? <==>
      && ("ignore-certificate-errors" in data ==> data["ignore-certificate-errors"].Bool?)
      && ((|data| != 0 || !c.skipName) ==> params(data).Success?)
      && (c.authenticated ==> "token" in data && data["token"].Str? && data["token"].s != "")
  {
  }

  /** Rejections come in code order: a shaper failure is returned as it is,
      before the token is looked at. */
  lemma ShaperFailureWins(c: Config, params: Record -> Result<Record, Error>, data: Record)
    requires "ignore-certificate-errors" in data ==> data["ignore-certificate-errors"].Bool?
    requires |data| != 0 || !c.skipName
    requires params(data).Failure?
    ensures Fetch(c, params, data) == Failure(params(data).error)
  {
  }

  /** An authenticated endpoint without a token, or with an empty one, is
      rejected with "No token and authenticated!" once shaping has passed. */
  lemma MissingTokenRejected(c: Config, params: Record -> Result<Record, Error>, data: Record)
    requires c.authenticated
    requires "token" !in data || data["token"] == Str("")
    requires "ignore-certificate-errors" in data ==> data["ignore-certificate-errors"].Bool?
    requires (|data| != 0 || !c.skipName) ==> params(data).Success?
    ensures Fetch(c, params, data) == Failure(NoToken)
  {
  }

  /** The shape of an accepted request: the url, the method, the copied
      certificate flag, the body and the headers. */
  lemma FetchShape(c: Config, params: Record -> Result<Record, Error>, data: Record)
    requires Fetch(c, params, data).Success?
    ensures var p := Fetch(c, params, data).value;
      && p.url == c.apiUrl + "/" + c.path
      && p.httpMethod == c.httpMethod
      && (p.ignoreCertificateErrors.Some? <==> "ignore-certificate-errors" in data)
      && (p.ignoreCertificateErrors.Some? ==> data["ignore-certificate-errors"] == Bool(p.ignoreCertificateErrors.value))
      && (p.body.Some? <==> |data| != 0 || !c.skipName)
      && (p.body.Some? ==> (p.body.value.name.Some? <==> !c.skipName))
      && (p.body.Some? && !c.skipName ==> p.body.value.name == Some(c.name))
      && (p.body.Some? ==> params(data) == Success(p.body.value.parameters))
      && (!c.authenticated ==> p.requestHeaders == c.headers)
      && (c.authenticated ==> p.requestHeaders == c.headers["authorization" := "Bearer " + data["token"].s])
  {
  }

  /** With the base params, every accepted request carries the payload
      itself as its parameters, and the url is the configured path's, the
      same whatever the payload. */
  lemma BaseFetchSendsPayload(c: Config, data: Record, other: Record)
    requires Fetch(c, Params, data).Success? && Fetch(c, Params, other).Success?
    ensures var p := Fetch(c, Params, data).value;
      && p.url == c.apiUrl + "/" + Path(c, data)
      && p.url == Fetch(c, Params, other).value.url
      && (p.body.Some? ==> p.body.value.parameters == data)
  {
    FetchShape(c, Params, data);
    FetchShape(c, Params, other);
  }
}

=== FILE: deanonymize_api.dfy ===
/** DeanonymizeApi: POST {apiUrl}/deanonymize, authenticated, with the
    payload projected to exactly {uuid, timestamp, person}. */
module DeanonymizeApi {
  import opened Wrappers
  import opened JsonData
  import ApiBase

  function Config(apiUrl: string): (c: ApiBase.Config)
    ensures c == ApiBase.Config("ApiDeanonymize", "POST", ApiBase.DefaultHeaders, "deanonymize", apiUrl, false, true)
  {
    ApiBase.FromProps(ApiBase.Props(Some("ApiDeanonymize"), None, None, Some("deanonymize"), Some(apiUrl), None, Some(true)))
  }

  /** params(data): uuid, timestamp and the mandatory person. */
  function Params(data: Record): (r: Result<Record, Error>)
    ensures r.Failure? ==> r.error in {NotFound("id"), WrongType("id", "string"),
      NotFound("timestamp"), WrongType("timestamp", "double"),
      NotFound("person"), WrongType("person", "JSONObject")}
    ensures r.Success? ==> r.value.Keys == {"uuid", "timestamp", "person"}
  {
    var id :- GetString(data, "id");
    var timestamp :- GetDouble(data, "timestamp");
    var person :- GetObject(data, "person");
    Success(map["uuid" := Str(id), "timestamp" := Num(timestamp), "person" := Obj(person)])
  }

  function Fetch(apiUrl: string, data: Record): Result<ApiBase.FetchParameters, Error> {
    ApiBase.Fetch(Config(apiUrl), Params, data)
  }

  /** Shaping succeeds exactly when id, timestamp and person are all present
      and well-typed; the parameters are then exactly {uuid, timestamp, person}
      with person carried over unchanged. */
  lemma ParamsShape(data: Record)
    ensures Params(data).Success? <==>
      && "id" in data && data["id"].Str?
      && "timestamp" in data && data["timestamp"].Num?
      && "person" in data && data["person"].Obj?
    ensures Params(data).Success? ==>
      var p := Params(data).value;
      && p.Keys == {"uuid", "timestamp", "person"}
      && p["uuid"] == data["id"]
      && p["timestamp"] == data["timestamp"]
      && p["person"] == data["person"]
  {
  }

  /** A payload without person is rejected before dispatch. */
  lemma MissingPersonRejected(apiUrl: string, data: Record)
    requires "ignore-certificate-errors" in data ==> data["ignore-certificate-errors"].Bool?
    requires "id" in data && data["id"].Str? && "timestamp" in data && data["timestamp"].Num?
    requires "person" !in data
    ensures Params(data) == Failure(NotFound("person"))
    ensures Fetch(apiUrl, data) == Failure(NotFound("person"))
  {
    ApiBase.ShaperFailureWins(Config(apiUrl), Params, data);
  }

  lemma FetchShape(apiUrl: string, data: Record)
    requires Fetch(apiUrl, data).Success?
    ensures var p := Fetch(apiUrl, data).value;
      && p.url == apiUrl + "/deanonymize"
      && p.httpMethod == "POST"
      && p.body.Some? && p.body.value.name == Some("ApiDeanonymize")
      && Params(data) == Success(p.body.value.parameters)
      && "token" in data && data["token"].Str?
      && p.requestHeaders == ApiBase.DefaultHeaders["authorization" := "Bearer " + data["token"].s]
  {
    ApiBase.FetchShape(Config(apiUrl), Params, data);
    ApiBase.FetchSucceedsIff(Config(apiUrl), Params, data);
  }
}

=== FILE: heartbeat_api.dfy ===
/** HeartbeatApi: POST {apiUrl}/heartbeat, authenticated, with the payload
    projected to {uuid, timestamp, journey?, platform?, tags?}. */
module HeartbeatApi {
  import opened Wrappers
  import opened JsonData
  import ApiBase

  function Config(apiUrl: string): (c: ApiBase.Config)
    ensures c == ApiBase.Config("ApiHeartbeat", "POST", ApiBase.DefaultHeaders, "heartbeat", apiUrl, false, true)
  {
    ApiBase.FromProps(ApiBase.Props(Some("ApiHeartbeat"), None, None, Some("heartbeat"), Some(apiUrl), None, Some(true)))
  }

  /** params(data): uuid and timestamp always; journey, platform and tags
      each only when the payload has them. */
  function Params(data: Record): (r: Result<Record, Error>)
    ensures r.Failure? ==> r.error in {NotFound("id"), WrongType("id", "string"),
      NotFound("timestamp"), WrongType("timestamp", "double"), WrongType("journey", "JSONArray"),
      WrongType("platform", "JSONObject"), WrongType("tags", "JSONArray")}
    ensures r.Success? ==> ("uuid" in r.value && "timestamp" in r.value
      && r.value.Keys <= {"uuid", "timestamp", "journey", "platform", "tags"})
  {
    var id :- GetString(data, "id");
    var timestamp :- GetDouble(data, "timestamp");
    var formatted := map["uuid" := Str(id), "timestamp" := Num(timestamp)];
    var withJourney :-
      if "journey" in data then var j :- GetArray(data, "journey"); Success(formatted["journey" := Arr(j)])
      else Success(formatted);
    var withPlatform :-
      if "platform" in data then var p :- GetObject(data, "platform"); Success(withJourney["platform" := Obj(p)])
      else Success(withJourney);
    if "tags" in data then var t :- GetArray(data, "tags"); Success(withPlatform["tags" := Arr(t)])
    else Success(withPlatform)
  }

  function Fetch(apiUrl: string, data: Record): Result<ApiBase.FetchParameters, Error> {
    ApiBase.Fetch(Config(apiUrl), Params, data)
  }

  /** The keys journey, platform and tags that the payload carries. */
  function Optional(data: Record): set<string> {
    set k | k in {"journey", "platform", "tags"} && k in data
  }

  /** Shaping succeeds exactly for a string id, a numeric timestamp and
      well-typed optional fields; the result holds uuid, timestamp and exactly
      the optional fields given, each carried over unchanged. */
  lemma ParamsShape(data: Record)
    ensures Params(data).Success? <==>
      && "id" in data && data["id"].Str?
      && "timestamp" in data && data["timestamp"].Num?
      && ("journey" in data ==> data["journey"].Arr?)
      && ("platform" in data ==> data["platform"].Obj?)
      && ("tags" in data ==> data["tags"].Arr?)
    ensures Params(data).Success? ==>
      var p := Params(data).value;
      && p.Keys == {"uuid", "timestamp"} + Optional(data)
      && p["uuid"] == data["id"]
      && p["timestamp"] == data["timestamp"]
      && (forall k :: k in Optional(data) ==> p[k] == data[k])
  {
  }

  lemma MissingFieldsFail(data: Record)
    ensures "id" !in data ==> Params(data) == Failure(NotFound("id"))
    ensures "id" in data && data["id"].Str? && "timestamp" !in data ==>
              Params(data) == Failure(NotFound("timestamp"))
  {
  }

  lemma FetchShape(apiUrl: string, data: Record)
    requires Fetch(apiUrl, data).Success?
    ensures var p := Fetch(apiUrl, data).value;
      && p.url == apiUrl + "/heartbeat"
      && p.httpMethod == "POST"
      && p.body.Some? && p.body.value.name == Some("ApiHeartbeat")
      && Params(data) == Success(p.body.value.parameters)
      && "token" in data && data["token"].Str?
      && p.requestHeaders == ApiBase.DefaultHeaders["authorization" := "Bearer " + data["token"].s]
  {
    ApiBase.FetchShape(Config(apiUrl), Params, data);
    ApiBase.FetchSucceedsIff(Config(apiUrl), Params, data);
  }
}

=== FILE: journey.dfy ===
/** The journey log shared by Xenon and its older sibling View: the records
    the entry points build, the tail-only duplicate rule of journeyAdd, the
    reset/restore pair around a commit, and the payloads a session sends.

    Everything here is a value-level specification; the classes in
    XenonSdk and ViewSdk change their fields as these functions say. */
module Journey {
  import opened Wrappers
  import opened JsonData

  /*** Records ***/

  /** What every entry point hands to journeyAdd: an action and at least one
      of category, funnel or outcome. */
  predicate Entry(r: Record) {
    "action" in r && ("category" in r || "funnel" in r || "outcome" in r)
  }

  /** A record as stored in the journey: an entry carrying its timestamp. */
  predicate Logged(r: Record) {
    Entry(r) && "timestamp" in r
  }

  predicate AllLogged(journey: seq<Record>) {
    forall i :: 0 <= i < |journey| ==> Logged(journey[i])
  }

  /** pageView(page) */
  function PageViewRecord(page: string): (r: Record)
    ensures r.Keys == {"category", "action"}
    ensures Entry(r) && r["category"] == Str("Page View") && r["action"] == Str(page)
  {
    map["category" := Str("Page View"), "action" := Str(page)]
  }

  /** funnel(stage, action) */
  function FunnelRecord(stage: string, action: string): (r: Record)
    ensures r.Keys == {"funnel", "action"}
    ensures Entry(r) && r["funnel"] == Str(stage) && r["action"] == Str(action)
  {
    map["funnel" := Str(stage), "action" := Str(action)]
  }

  /** outcome(outcome, action) */
  function OutcomeRecord(outcome: string, action: string): (r: Record)
    ensures r.Keys == {"outcome", "action"}
    ensures Entry(r) && r["outcome"] == Str(outcome) && r["action"] == Str(action)
  {
    map["outcome" := Str(outcome), "action" := Str(action)]
  }

  /** event(e) before it reaches journeyAdd: a missing action becomes a copy
      of the event itself, and a record with none of category, funnel and
      outcome is filed under category "Event". */
  function NormalizeEvent(event: Record): (r: Record)
    ensures Entry(r)
    ensures forall k :: k in event ==> k in r && r[k] == event[k]
    ensures r.Keys <= event.Keys + {"action", "category"}
    ensures "action" !in event ==> r["action"] == Obj(event)
    ensures "category" !in event ==>
              ("category" in r <==> "funnel" !in event && "outcome" !in event)
    ensures "category" in r && "category" !in event ==> r["category"] == Str("Event")
  {
    var withAction := if "action" in event then event else event["action" := Obj(event)];
    if "category" !in withAction && "funnel" !in withAction && "outcome" !in withAction
    then withAction["category" := Str("Event")]
    else withAction
  }

  /*** journeyAdd ***/

  /** The record with the log's own clock reading under "timestamp". */
  function Stamp(content: Record, now: real): (r: Record)
    ensures r.Keys == content.Keys + {"timestamp"} && r["timestamp"] == Num(now)
    ensures forall k :: k in content && k != "timestamp" ==> r[k] == content[k]
  {
    content["timestamp" := Num(now)]
  }

  /** Both records are funnel stages, or both carry a category. */
  predicate SameKind(last: Record, content: Record) {
    ("funnel" in last && "funnel" in content) || ("category" in last && "category" in content)
  }

  /** The duplicate rule: same kind and the same action as the tail. The
      source compares the two actions by reference; the model compares values. */
  predicate IsRepeat(last: Record, content: Record)
    requires "action" in last && "action" in content
    ensures IsRepeat(last, content) ==> last["action"] == content["action"]
    ensures "funnel" !in content && "category" !in content ==> !IsRepeat(last, content)
  {
    SameKind(last, content) && last["action"] == content["action"]
  }

  function Last(journey: seq<Record>): Record
    requires journey != []
  {
    journey[|journey| - 1]
  }

  /** The journey after journeyAdd(content) at clock reading `now`. */
  function Append(journey: seq<Record>, content: Record, now: real): (r: seq<Record>)
    requires "action" in content
    requires journey != [] ==> "action" in Last(journey)
    ensures |journey| <= |r| <= |journey| + 1
    ensures r[..|journey|] == journey
    ensures |r| == |journey| + 1 ==> r[|journey|] == Stamp(content, now)
    ensures AllLogged(journey) && Entry(content) ==> AllLogged(r)
  {
    var stamped := Stamp(content, now);
    if journey == [] then [stamped]
    else if IsRepeat(Last(journey), stamped) then journey
    else journey + [stamped]
  }

  lemma AppendToEmpty(content: Record, now: real)
    requires "action" in content
    ensures Append([], content, now) == [Stamp(content, now)]
    ensures Append([], content, now)[0]["timestamp"] == Num(now)
  {
  }

  /** A repeat of the tail leaves the journey as it was. */
  lemma RepeatIsDropped(journey: seq<Record>, content: Record, now: real)
    requires journey != [] && "action" in content && "action" in Last(journey)
    requires SameKind(Last(journey), content) && Last(journey)["action"] == content["action"]
    ensures Append(journey, content, now) == journey
  {
  }

  /** Anything else becomes the new tail; earlier records are untouched. */
  lemma NonRepeatIsAppended(journey: seq<Record>, content: Record, now: real)
    requires "action" in content
    requires journey != [] ==> "action" in Last(journey)
    requires journey != [] ==> !SameKind(Last(journey), content) || Last(journey)["action"] != content["action"]
    ensures Append(journey, content, now) == journey + [Stamp(content, now)]
  {
  }

  /** journeyAdd looks at the tail only: two journeys ending in the same
      record gain the same suffix. */
  lemma AppendOnlySeesTail(p: seq<Record>, q: seq<Record>, content: Record, now: real)
    requires q != [] && "action" in content && "action" in Last(q)
    ensures Append(p + q, content, now) == p + Append(q, content, now)
  {
    assert Last(p + q) == Last(q);
  }

  /** One journeyAdd call: the record and the clock reading it is stamped with. */
  datatype Step = Step(content: Record, now: real)

  predicate Entries(steps: seq<Step>) {
    forall i :: 0 <= i < |steps| ==> Entry(steps[i].content)
  }

  /** The journey after a run of journeyAdd calls. Appends never remove or
      reorder what is already logged, and each grows the log by at most one. */
  function AppendAll(journey: seq<Record>, steps: seq<Step>): (r: seq<Record>)
    requires AllLogged(journey) && Entries(steps)
    ensures |journey| <= |r| <= |journey| + |steps|
    ensures r[..|journey|] == journey
    ensures AllLogged(r)
    decreases |steps|
  {
    if steps == [] then journey
    else AppendAll(Append(journey, steps[0].content, steps[0].now), steps[1..])
  }

  lemma {:induction false} AppendAllOnlySeesTail(p: seq<Record>, q: seq<Record>, steps: seq<Step>)
    requires q != [] && AllLogged(p) && AllLogged(q) && Entries(steps)
    ensures AllLogged(p + q)
    ensures AppendAll(p + q, steps) == p + AppendAll(q, steps)
    decreases |steps|
  {
    assert forall i :: 0 <= i < |p + q| ==> (p + q)[i] == if i < |p| then p[i] else q[i - |p|];
    if steps != [] {
      var s := steps[0];
      var q' := Append(q, s.content, s.now);
      AppendOnlySeesTail(p, q, s.content, s.now);
      AppendAllOnlySeesTail(p, q', steps[1..]);
    }
  }

  /*** reset / restore ***/

  /** restore(): the saved snapshot followed by whatever was logged since the
      reset. The source only copies when the live journey is non-empty. */
  function Merge(snapshot: seq<Record>, current: seq<Record>): (r: seq<Record>)
    ensures r == snapshot + current
  {
    if |current| > 0 then snapshot + current else snapshot
  }

  /** The two copy loops of restore(). */
  method Concat(snapshot: seq<Record>, current: seq<Record>) returns (result: seq<Record>)
    ensures result == snapshot + current
  {
    result := [];
    var i := 0;
    while i < |snapshot|
      invariant 0 <= i <= |snapshot|
      invariant result == snapshot[..i]
    {
      result := result + [snapshot[i]];
      i := i + 1;
    }
    i := 0;
    while i < |current|
      invariant 0 <= i <= |current|
      invariant result == snapshot + current[..i]
    {
      result := result + [current[i]];
      i := i + 1;
    }
  }

  /** Nothing is lost: every saved and every live record is in the merge,
      saved ones first, each as often as before. */
  lemma MergeKeepsEverything(snapshot: seq<Record>, current: seq<Record>)
    ensures multiset(Merge(snapshot, current)) == multiset(snapshot) + multiset(current)
    ensures Merge(snapshot, current)[..|snapshot|] == snapshot
    ensures Merge(snapshot, current)[|snapshot|..] == current
  {
  }

  /** restore() clears the snapshot, so a second restore in a row changes nothing. */
  lemma RestoreTwiceIsRestore(snapshot: seq<Record>, current: seq<Record>)
    ensures Merge([], Merge(snapshot, current)) == Merge(snapshot, current)
  {
  }

  /** A failed commit with nothing logged meanwhile gives back the journey as it was. */
  lemma ResetThenRestore(journey: seq<Record>)
    ensures Merge(journey, []) == journey
  {
  }

  /** A failed commit ends with the snapshot followed by the journey built
      from empty while the request was in flight. When the first record logged
      meanwhile is not a repeat of the snapshot's tail, that is exactly the
      journey an uninterrupted session would hold. */
  lemma FailedCommitMatchesUninterrupted(pre: seq<Record>, steps: seq<Step>)
    requires AllLogged(pre) && Entries(steps)
    requires pre != [] && steps != [] ==> !IsRepeat(Last(pre), Stamp(steps[0].content, steps[0].now))
    ensures Merge(pre, AppendAll([], steps)) == AppendAll(pre, steps)
  {
    if pre == [] || steps == [] {
      assert AppendAll(pre, []) == pre;
      assert Merge([], AppendAll([], steps)) == AppendAll([], steps);
    } else {
      var x := Stamp(steps[0].content, steps[0].now);
      assert Append(pre, steps[0].content, steps[0].now) == pre + [x];
      assert Append([], steps[0].content, steps[0].now) == [x];
      AppendAllOnlySeesTail(pre, [x], steps[1..]);
    }
  }

  /** ...but records logged during the request are never compared with the
      snapshot: a repeat of the snapshot's tail survives the merge, where an
      uninterrupted session would have dropped it. */
  lemma FailedCommitKeepsRepeatOfSnapshotTail()
    ensures var r := PageViewRecord("home");
            var pre := [Stamp(r, 1.0)];
            var steps := [Step(r, 2.0)];
            |AppendAll(pre, steps)| == 1 && |Merge(pre, AppendAll([], steps))| == 2
  {
    var r := PageViewRecord("home");
    var pre := [Stamp(r, 1.0)];
    assert IsRepeat(Last(pre), Stamp(r, 2.0));
    assert AppendAll(pre, [Step(r, 2.0)]) == AppendAll(pre, []);
  }

  /*** restore() as written, before any reset ***/

  /** The journey reference as the source holds it: an array or null. */
  datatype Stored = NullArray | Array(items: seq<Record>)

  /** restore() either stores a journey or dies dereferencing a null snapshot. */
  datatype RestoreOutcome = NullPointerException | Restored(journey: Stored)

  /** restore() as the source writes it, where the instance's snapshot starts
      out null and is only set by reset(). */
  function RestoreAsWritten(saved: Stored, current: seq<Record>): RestoreOutcome {
    if |current| > 0 then
      if saved.NullArray? then NullPointerException
      else Restored(Array(saved.items + current))
    else Restored(saved)
  }

  /** Before any reset, restore() on a non-empty journey throws, and on an
      empty one it stores null as the shared journey, after which every
      journeyAdd dereferences null. */
  lemma RestoreBeforeResetAsWritten(r: Record)
    ensures RestoreAsWritten(NullArray, [r]) == NullPointerException
    ensures RestoreAsWritten(NullArray, []) == Restored(NullArray)
  {
  }

  /** Once a reset has stored a snapshot, the source agrees with Merge. */
  lemma RestoreAsWrittenAfterReset(saved: seq<Record>, current: seq<Record>)
    ensures RestoreAsWritten(Array(saved), current) == Restored(Array(Merge(saved, current)))
  {
  }

  /** With the snapshot starting out empty, a restore before any reset keeps
      the journey as it is. */
  lemma RestoreWithoutResetKeepsJourney(current: seq<Record>)
    ensures Merge([], current) == current
  {
  }

  /*** what a session sends ***/

  /** The journey as the JSONArray put into a request. */
  function JourneyValue(journey: seq<Record>): (v: Value)
    ensures v.Arr? && |v.items| == |journey|
    ensures forall i :: 0 <= i < |journey| ==> v.items[i] == Obj(journey[i])
  {
    Arr(seq(|journey|, i requires 0 <= i < |journey| => Obj(journey[i])))
  }

  /** Reads a JSONArray of objects back as records. */
  function RecordsOf(items: seq<Value>): (r: Option<seq<Record>>)
    ensures r.Some? ==> |r.value| == |items|
    decreases |items|
  {
    if items == [] then Some([])
    else if !items[0].Obj? then None
    else match RecordsOf(items[1..])
      case None => None
      case Some(rest) => Some([items[0].fields] + rest)
  }

  lemma {:induction false} JourneyValueRoundTrip(journey: seq<Record>)
    ensures RecordsOf(JourneyValue(journey).items) == Some(journey)
    decreases |journey|
  {
    if journey != [] {
      assert JourneyValue(journey).items[1..] == JourneyValue(journey[1..]).items;
      JourneyValueRoundTrip(journey[1..]);
      assert [journey[0]] + journey[1..] == journey;
    }
  }

  /** The parameters commit() hands to the journey API. */
  function CommitPayload(id: string, journey: seq<Record>, token: string, now: real, allowSelfSigned: bool): (r: Record)
    ensures r.Keys == {"id", "journey", "token", "timestamp", "ignore-certificate-errors"}
    ensures r["journey"] == JourneyValue(journey) && r["token"] == Str(token)
  {
    map["id" := Str(id), "journey" := JourneyValue(journey), "token" := Str(token),
        "timestamp" := Num(now), "ignore-certificate-errors" := Bool(allowSelfSigned)]
  }

  /** The parameters deanonymize(person) hands to the deanonymize API. */
  function DeanonymizePayload(id: string, person: Record, token: string, now: real, allowSelfSigned: bool): (r: Record)
    ensures r.Keys == {"id", "person", "token", "timestamp", "ignore-certificate-errors"}
    ensures r["person"] == Obj(person) && r["token"] == Str(token)
  {
    map["id" := Str(id), "person" := Obj(person), "token" := Str(token),
        "timestamp" := Num(now), "ignore-certificate-errors" := Bool(allowSelfSigned)]
  }
}

=== FILE: journey_api.dfy ===
/** JourneyApi: POST {apiUrl}/journey, authenticated, with the journey
    payload projected to {uuid, timestamp, journey?}. */
module JourneyApi {
  import opened Wrappers
  import opened JsonData
  import ApiBase

  /** The props the constructor passes to ApiBase. */
  function Config(apiUrl: string): (c: ApiBase.Config)
    ensures c == ApiBase.Config("ApiJourney", "POST", ApiBase.DefaultHeaders, "journey", apiUrl, false, true)
  {
    ApiBase.FromProps(ApiBase.Props(Some("ApiJourney"), None, None, Some("journey"), Some(apiUrl), None, Some(true)))
  }

  /** params(data): uuid from id, the timestamp, and the journey when present. */
  function Params(data: Record): (r: Result<Record, Error>)
    ensures r.Failure? ==> r.error in {NotFound("id"), WrongType("id", "string"),
      NotFound("timestamp"), WrongType("timestamp", "double"), WrongType("journey", "JSONArray")}
    ensures r.Success? ==> ("uuid" in r.value && "timestamp" in r.value
      && r.value.Keys <= {"uuid", "timestamp", "journey"})
  {
    var id :- GetString(data, "id");
    var timestamp :- GetDouble(data, "timestamp");
    var formatted := map["uuid" := Str(id), "timestamp" := Num(timestamp)];
    if "journey" !in data then Success(formatted)
    else
      var journey :- GetArray(data, "journey");
      Success(formatted["journey" := Arr(journey)])
  }

  function Fetch(apiUrl: string, data: Record): Result<ApiBase.FetchParameters, Error> {
    ApiBase.Fetch(Config(apiUrl), Params, data)
  }

  /** Shaping succeeds exactly for a string id, a numeric timestamp and, when
      present, an array journey; the result has exactly the keys uuid,
      timestamp and (iff given) journey, carried over unchanged. */
  lemma ParamsShape(data: Record)
    ensures Params(data).Success? <==>
      && "id" in data && data["id"].Str?
      && "timestamp" in data && data["timestamp"].Num?
      && ("journey" in data ==> data["journey"].Arr?)
    ensures Params(data).Success? ==>
      var p := Params(data).value;
      && p.Keys == {"uuid", "timestamp"} + (if "journey" in data then {"journey"} else {})
      && p["uuid"] == data["id"]
      && p["timestamp"] == data["timestamp"]
      && ("journey" in data ==> p["journey"] == data["journey"])
  {
  }

  /** A payload without id, or with id but without timestamp, fails shaping. */
  lemma MissingFieldsFail(data: Record)
    ensures "id" !in data ==> Params(data) == Failure(NotFound("id"))
    ensures "id" in data && data["id"].Str? && "timestamp" !in data ==>
              Params(data) == Failure(NotFound("timestamp"))
  {
  }

  /** An accepted journey request goes to {apiUrl}/journey as a named POST
      with the default headers and the bearer token. */
  lemma FetchShape(apiUrl: string, data: Record)
    requires Fetch(apiUrl, data).Success?
    ensures var p := Fetch(apiUrl, data).value;
      && p.url == apiUrl + "/journey"
      && p.httpMethod == "POST"
      && p.body.Some? && p.body.value.name == Some("ApiJourney")
      && Params(data) == Success(p.body.value.parameters)
      && "token" in data && data["token"].Str?
      && p.requestHeaders == ApiBase.DefaultHeaders["authorization" := "Bearer " + data["token"].s]
  {
    ApiBase.FetchShape(Config(apiUrl), Params, data);
    ApiBase.FetchSucceedsIff(Config(apiUrl), Params, data);
  }

  /** A payload that fails shaping is rejected with that failure, before the
      token is checked and before anything is sent. */
  lemma ShapingFailureRejects(apiUrl: string, data: Record)
    requires "ignore-certificate-errors" in data ==> data["ignore-certificate-errors"].Bool?
    requires Params(data).Failure?
    ensures Fetch(apiUrl, data) == Failure(Params(data).error)
  {
    ApiBase.ShaperFailureWins(Config(apiUrl), Params, data);
  }
}

=== FILE: json_data.dfy ===
/** The org.json values the SDK exchanges, with value semantics.

    A JSONObject is a `Record` (a map from keys to values); a JSONArray is an
    `Arr`. org.json keeps Java numbers (Integer, Long, Double) under one Number
    interface; the model keeps every number as a real, which is enough for the
    timestamps (seconds as a double) and the duplicate counter. */
module JsonData {
  import opened Wrappers

  datatype Value =
    | Null
    | Bool(b: bool)
    | Num(n: real)
    | Str(s: string)
    | Arr(items: seq<Value>)
    | Obj(fields: map<string, Value>)

  type Record = map<string, Value>

  /** A Throwable as the SDK raises or receives it. */
  datatype Error =
    | Thrown(message: string)                 // new Throwable(message)
    | NotFound(key: string)                   // org.json: JSONObject[key] not found
    | WrongType(key: string, expected: string) // org.json: JSONObject[key] is not a <expected>
    | Transport(message: string)              // an IOException from the HTTP client
  {
    /** What getMessage() returns for this error. */
    function Message(): string {
      match this
      case Thrown(m) => m
      case NotFound(k) => "JSONObject[\"" + k + "\"] not found."
      case WrongType(k, t) => "JSONObject[\"" + k + "\"] is not a " + t + "."
      case Transport(m) => m
    }
  }

  /** The SDK's Json class: a response body kept as its raw text. */
  datatype Json = Json(underlying: string)

  // org.json getters: each fails with NotFound when the key is absent and
  // with WrongType when the stored value has another shape.

  function GetString(r: Record, key: string): Result<string, Error> {
    if key !in r then Failure(NotFound(key))
    else if r[key].Str? then Success(r[key].s)
    else Failure(WrongType(key, "string"))
  }

  function GetDouble(r: Record, key: string): Result<real, Error> {
    if key !in r then Failure(NotFound(key))
    else if r[key].Num? then Success(r[key].n)
    else Failure(WrongType(key, "double"))
  }

  function GetBoolean(r: Record, key: string): Result<bool, Error> {
    if key !in r then Failure(NotFound(key))
    else if r[key].Bool? then Success(r[key].b)
    else Failure(WrongType(key, "Boolean"))
  }

  function GetArray(r: Record, key: string): Result<seq<Value>, Error> {
    if key !in r then Failure(NotFound(key))
    else if r[key].Arr? then Success(r[key].items)
    else Failure(WrongType(key, "JSONArray"))
  }

  function GetObject(r: Record, key: string): Result<Record, Error> {
    if key !in r then Failure(NotFound(key))
    else if r[key].Obj? then Success(r[key].fields)
    else Failure(WrongType(key, "JSONObject"))
  }

  const IntMin: int := -0x8000_0000
  const IntMax: int := 0x7FFF_FFFF

  /** Java's Number.intValue() of a double: truncation toward zero,
      saturating at the bounds of a 32-bit int. */
  function IntValue(x: real): (i: int)
    ensures IntMin <= i <= IntMax
    ensures x >= IntMax as real ==> i == IntMax
    ensures x <= IntMin as real ==> i == IntMin
    ensures IntMin as real < x < IntMax as real && x >= 0.0 ==> i as real <= x < i as real + 1.0
    ensures IntMin as real < x < IntMax as real && x < 0.0 ==> i as real - 1.0 < x <= i as real
  {
    if x >= IntMax as real then IntMax
    else if x <= IntMin as real then IntMin
    else if x >= 0.0 then x.Floor
    else -((-x).Floor)
  }

  function GetInt(r: Record, key: string): Result<int, Error> {
    if key !in r then Failure(NotFound(key))
    else if r[key].Num? then Success(IntValue(r[key].n))
    else Failure(WrongType(key, "int"))
  }

  /** 32-bit two's-complement wrap-around of Java int arithmetic. */
  function Wrap32(n: int): (w: int)
    ensures IntMin <= w <= IntMax
    ensures IntMin <= n <= IntMax ==> w == n
    ensures (w - n) % 0x1_0000_0000 == 0
  {
    (n - IntMin) % 0x1_0000_0000 + IntMin
  }
}

=== FILE: json_fetcher.dfy ===
/** JsonFetcher: builds the HTTP request from the parameters ApiBase hands
    over, sends it on its client (optionally reconfigured to accept
    self-signed certificates), and classifies the reply.

    The HTTP client library is abstract: a client is an opaque value, building
    the trust-all client is an outcome passed in, and "enqueue" appends the
    call to a log of dispatched calls. */
module HttpFetch {
  import opened Wrappers
  import opened JsonData
  import ApiBase

  /** An HTTP client; `trustsAnyCertificate` is set on the rebuilt client
      that skips certificate and hostname checks. */
  datatype Client = Client(handle: nat, trustsAnyCertificate: bool)

  type Header = (string, string)

  datatype Verb = Get | Post(body: ApiBase.Body)

  datatype HttpRequest = HttpRequest(url: string, headers: seq<Header>, verb: Verb)

  /** One call handed to the client. */
  datatype Call = Call(client: Client, request: HttpRequest)

  /** A response body as OkHttp gives it: absent, readable, or failing to read. */
  datatype ResponseBody = NoBody | Text(text: string) | Unreadable(error: Error)

  /** What the callback receives: a transport failure, or a response with its
      status code, body and status message (reading the message may fail). */
  datatype Reply =
    | TransportFailure(error: Error)
    | Response(code: int, body: ResponseBody, message: Result<string, Error>)

  const NoResponseBody := Thrown("No response body.")
  const AcceptJson: map<string, string> := map["accept" := "application/json"]

  /*** Classifying the reply ***/

  datatype Status = Successful | ClientError | OtherError

  /** checkStatus: 200..399 passes, 400..499 is the client's fault, anything
      else (below 200 or 500 and above) is reported by status message. */
  function Classify(code: int): (s: Status)
    ensures s == Successful <==> 200 <= code < 400
    ensures s == ClientError <==> 400 <= code < 500
    ensures s == OtherError <==> code < 200 || 500 <= code
  {
    if 200 <= code < 400 then Successful
    else if 400 <= code < 500 then ClientError
    else OtherError
  }

  /** responseBody(response) */
  function ReadBody(body: ResponseBody): (r: Result<string, Error>)
    ensures r.Success? <==> body.Text?
    ensures body.NoBody? ==> r == Failure(NoResponseBody)
    ensures body.Unreadable? ==> r == Failure(body.error)
  {
    match body
    case NoBody => Failure(NoResponseBody)
    case Text(s) => Success(s)
    case Unreadable(e) => Failure(e)
  }

  /** How the future returned by fetch settles for a given reply. */
  function Complete(reply: Reply): (r: Result<Json, Error>)
    ensures reply.TransportFailure? ==> r == Failure(reply.error)
    ensures reply.Response? && !(200 <= reply.code < 400) ==> r.Failure?
    ensures reply.Response? && 200 <= reply.code < 400 ==> (r.Success? <==> reply.body.Text?)
  {
    match reply
    case TransportFailure(e) => Failure(e)
    case Response(code, body, message) =>
      match Classify(code)
      case Successful =>
        (match ReadBody(body)
         case Success(s) => Success(Json(s))
         case Failure(e) => Failure(e))
      case ClientError =>
        (match ReadBody(body)
         case Success(s) => Failure(Thrown(s))
         case Failure(e) => Failure(e))
      case OtherError =>
        (match message
         case Success(m) => Failure(Thrown(m))
         case Failure(e) => Failure(e))
  }

  /** The future resolves exactly for a 2xx/3xx response with a readable
      body, and then wraps that body's text unchanged (an empty text too). */
  lemma CompleteSucceedsIff(reply: Reply)
    ensures Complete(reply).Success? <==>
      reply.Response? && 200 <= reply.code < 400 && reply.body.Text?
    ensures Complete(reply).Success? ==> Complete(reply).value == Json(reply.body.text)
  {
  }

  /** A 4xx rejects with the body text itself as the message. */
  lemma ClientErrorCarriesBody(code: int, text: string, message: Result<string, Error>)
    requires 400 <= code < 500
    ensures Complete(Response(code, Text(text), message)) == Failure(Thrown(text))
    ensures Complete(Response(code, Text(text), message)).error.Message() == text
  {
  }

  /** A missing body reads as "No response body." on the success and 4xx paths alike. */
  lemma MissingBody(code: int, message: Result<string, Error>)
    requires 200 <= code < 500
    ensures Complete(Response(code, NoBody, message)) == Failure(NoResponseBody)
    ensures Complete(Response(code, NoBody, message)).error.Message() == "No response body."
  {
  }

  /** Any other status rejects with the status message, never the body. */
  lemma OtherStatusCarriesMessage(code: int, body: ResponseBody, message: string)
    requires code < 200 || 500 <= code
    ensures Complete(Response(code, body, Success(message))) == Failure(Thrown(message))
  {
  }

  /** A transport failure rejects with the same error, unchanged. */
  lemma TransportFailurePassesThrough(e: Error)
    ensures Complete(TransportFailure(e)) == Failure(e)
  {
  }

  /*** Building the request ***/

  /** `headers` followed by one header per entry of `entries`, in the order
      the entries are visited. */
  predicate HeadersAdded(headers: seq<Header>, entries: map<string, string>, r: seq<Header>) {
    && |r| == |headers| + |entries|
    && r[..|headers|] == headers
    && (forall i :: |headers| <= i < |r| ==> r[i].0 in entries && entries[r[i].0] == r[i].1)
    && (forall k :: k in entries ==> exists i :: |headers| <= i < |r| && r[i] == (k, entries[k]))
  }

  /** addHeaders: adds one header per entry, visiting the entries in an
      order the map does not fix. */
  method AddHeaders(headers: seq<Header>, entries: map<string, string>) returns (r: seq<Header>)
    ensures HeadersAdded(headers, entries, r)
  {
    r := headers;
    var remaining := entries.Keys;
    ghost var visited: set<string> := {};
    while remaining != {}
      invariant visited + remaining == entries.Keys && visited !! remaining
      invariant |r| == |headers| + |visited|
      invariant r[..|headers|] == headers
      invariant forall i :: |headers| <= i < |r| ==> r[i].0 in visited && entries[r[i].0] == r[i].1
      invariant forall k :: k in visited ==> exists i :: |headers| <= i < |r| && r[i] == (k, entries[k])
      decreases remaining
    {
      var k :| k in remaining;
      ghost var before := r;
      r := r + [(k, entries[k])];
      assert r[|r| - 1] == (k, entries[k]);
      assert forall i :: 0 <= i < |before| ==> r[i] == before[i];
      remaining := remaining - {k};
      visited := visited + {k};
    }
    assert visited == entries.Keys;
  }

  /** The request fetch builds from `data`: its url, "accept:
      application/json" first, then every request header, and a POST of the
      body or else a GET. */
  predicate Built(data: ApiBase.FetchParameters, request: HttpRequest) {
    && request.url == data.url
    && |request.headers| >= 1 && request.headers[0] == ("accept", "application/json")
    && HeadersAdded(request.headers[..1], data.requestHeaders, request.headers)
    && request.verb == (if data.httpMethod == "POST" && data.body.Some? then Post(data.body.value) else Get)
  }

  /** Builds the request; a POST without a body fails reading "body". */
  method BuildRequest(data: ApiBase.FetchParameters) returns (r: Result<HttpRequest, Error>)
    ensures r.Failure? <==> data.httpMethod == "POST" && data.body.None?
    ensures r.Failure? ==> r.error == NotFound("body")
    ensures r.Success? ==> Built(data, r.value)
  {
    var headers := AddHeaders([], AcceptJson);
    assert headers[0].0 in AcceptJson;
    headers := AddHeaders(headers, data.requestHeaders);
    if data.httpMethod == "POST" {
      if data.body.None? {
        return Failure(NotFound("body"));
      }
      r := Success(HttpRequest(data.url, headers, Post(data.body.value)));
    } else {
      r := Success(HttpRequest(data.url, headers, Get));
    }
  }

  class JsonFetcher {
    var client: Client
    /** Every call enqueued on a client, oldest first. */
    var enqueued: seq<Call>

    constructor(client: Client)
      ensures this.client == client && enqueued == []
    {
      this.client := client;
      enqueued := [];
    }

    /** fetch(data): when the payload asks to ignore certificate errors, the
        client is replaced by the rebuilt trust-all client; if rebuilding
        failed, the saved client stays. The request is then enqueued once,
        on whichever client is current. `rebuilt` is the outcome of
        allowSelfSignedCert(). */
    method Fetch(data: ApiBase.FetchParameters, rebuilt: Result<Client, Error>) returns (sent: Result<HttpRequest, Error>)
      modifies this
      ensures client == (if data.ignoreCertificateErrors == Some(true) && rebuilt.Success?
                         then rebuilt.value else old(client))
      ensures sent.Failure? <==> data.httpMethod == "POST" && data.body.None?
      ensures sent.Success? ==> Built(data, sent.value) && enqueued == old(enqueued) + [Call(client, sent.value)]
      ensures sent.Failure? ==> enqueued == old(enqueued)
    {
      if data.ignoreCertificateErrors == Some(true) {
        var saved := client;
        match rebuilt {
          case Success(c) => client := c;
          case Failure(_) => client := saved;
        }
      }
      sent := BuildRequest(data);
      if sent.Success? {
        enqueued := enqueued + [Call(client, sent.value)];
      }
    }
  }

  /** A self-signed request whose reconfiguration throws is still sent exactly
      once, on the original client: the fallback never fails open. */
  method SelfSignedFallback(fetcher: JsonFetcher, data: ApiBase.FetchParameters, failure: Error)
    requires data.ignoreCertificateErrors == Some(true)
    requires data.httpMethod == "POST" ==> data.body.Some?
    modifies fetcher
    ensures fetcher.client == old(fetcher.client)
    ensures |fetcher.enqueued| == |old(fetcher.enqueued)| + 1
    ensures fetcher.enqueued[..|old(fetcher.enqueued)|] == old(fetcher.enqueued)
    ensures fetcher.enqueued[|fetcher.enqueued| - 1].client == old(fetcher.client)
    ensures Built(data, fetcher.enqueued[|fetcher.enqueued| - 1].request)
  {
    var sent := fetcher.Fetch(data, Failure(failure));
  }
}

=== FILE: view.dfy ===
/** View: the older entry point. Like Xenon it shares the id and the journey
    across instances (static fields), but the key, url and self-signed flag
    belong to each instance. Repeats are dropped without counting, commit
    does not check for a key, and a failed request is answered with a Json
    holding the error's message instead of failing. */
module ViewSdk {
  import opened Wrappers
  import opened JsonData
  import Journey
  import ApiBase
  import JourneyApi
  import DeanonymizeApi

  const DefaultApiUrl := "https://app.xenonview.com"

  /** The static fields of View. */
  class Statics {
    var id: string
    var journey: seq<Record>

    predicate Valid()
      reads this
    {
      Journey.AllLogged(journey)
    }

    /** Class initialisation; `id` is the UUID drawn when the class loads. */
    constructor(id: string)
      ensures this.id == id && journey == [] && Valid()
    {
      this.id := id;
      journey := [];
    }
  }

  /** The answer exceptionally(err -> new Json(err.getMessage())) gives. */
  function Recovered(settled: Result<Json, Error>): (j: Json)
    ensures settled.Success? ==> j == settled.value
    ensures settled.Failure? ==> j.underlying == settled.error.Message()
  {
    match settled
    case Success(json) => json
    case Failure(e) => Json(e.Message())
  }

  class View {
    const statics: Statics
    var apiUrl: string
    var apiKey: string
    var allowSelfSigned: bool
    /** The journey saved by the last reset(), until restore() consumes it. */
    var restoreJourney: seq<Record>

    predicate Valid()
      reads this, statics
    {
      statics.Valid() && Journey.AllLogged(restoreJourney)
    }

    /** View(apiKey[, apiUrl][, allowSelfSigned]); an absent url is the
        default one, an absent flag is false. */
    constructor(statics: Statics, apiKey: string, apiUrl: Option<string>, allowSelfSigned: Option<bool>)
      requires statics.Valid()
      ensures this.statics == statics && restoreJourney == []
      ensures this.apiKey == apiKey
      ensures this.apiUrl == (if apiUrl.Some? then apiUrl.value else DefaultApiUrl)
      ensures this.allowSelfSigned <==> allowSelfSigned == Some(true)
      ensures Valid()
    {
      this.statics := statics;
      this.apiKey := apiKey;
      this.apiUrl := apiUrl.GetOr(DefaultApiUrl);
      this.allowSelfSigned := allowSelfSigned.GetOr(false);
      restoreJourney := [];
    }

    function Id(): string
      reads statics
    {
      statics.id
    }

    /** id(value): replaces the shared id and returns it. */
    method SetId(id: string) returns (r: string)
      modifies statics
      ensures r == id && statics.id == id && statics.journey == old(statics.journey)
    {
      statics.id := id;
      r := statics.id;
    }

    /** init(apiKey, apiUrl): an empty argument leaves its setting alone;
        only this instance changes. */
    method Init(apiKey: string, apiUrl: string)
      modifies this
      ensures this.apiUrl == (if |apiUrl| > 0 then apiUrl else old(this.apiUrl))
      ensures this.apiKey == (if |apiKey| > 0 then apiKey else old(this.apiKey))
      ensures allowSelfSigned == old(allowSelfSigned) && restoreJourney == old(restoreJourney)
    {
      if |apiUrl| > 0 {
        this.apiUrl := apiUrl;
      }
      if |apiKey| > 0 {
        this.apiKey := apiKey;
      }
    }

    /** journeyAdd(content): a repeat of the tail is dropped, nothing else
        is. */
    method JourneyAdd(content: Record, now: real)
      requires Valid() && Journey.Entry(content)
      modifies statics
      ensures Valid() && statics.id == old(statics.id)
      ensures statics.journey == Journey.Append(old(statics.journey), content, now)
    {
      var journey := statics.journey;
      var stamped := Journey.Stamp(content, now);
      if |journey| > 0 {
        var last := journey[|journey| - 1];
        if Journey.SameKind(last, stamped) {
          if last["action"] != stamped["action"] {
            journey := journey + [stamped];
          }
        } else {
          journey := journey + [stamped];
        }
      } else {
        journey := [stamped];
      }
      statics.journey := journey;
    }

    /** pageView(page) */
    method PageView(page: string, now: real)
      requires Valid()
      modifies statics
      ensures Valid() && statics.id == old(statics.id)
      ensures statics.journey == Journey.Append(old(statics.journey), Journey.PageViewRecord(page), now)
    {
      JourneyAdd(Journey.PageViewRecord(page), now);
    }

    /** funnel(stage, action) */
    method Funnel(stage: string, action: string, now: real)
      requires Valid()
      modifies statics
      ensures Valid() && statics.id == old(statics.id)
      ensures statics.journey == Journey.Append(old(statics.journey), Journey.FunnelRecord(stage, action), now)
    {
      JourneyAdd(Journey.FunnelRecord(stage, action), now);
    }

    /** outcome(outcome, action) */
    method Outcome(outcome: string, action: string, now: real)
      requires Valid()
      modifies statics
      ensures Valid() && statics.id == old(statics.id)
      ensures statics.journey == Journey.Append(old(statics.journey), Journey.OutcomeRecord(outcome, action), now)
    {
      JourneyAdd(Journey.OutcomeRecord(outcome, action), now);
    }

    /** event(event) */
    method Event(event: Record, now: real)
      requires Valid()
      modifies statics
      ensures Valid() && statics.id == old(statics.id)
      ensures statics.journey == Journey.Append(old(statics.journey), Journey.NormalizeEvent(event), now)
    {
      JourneyAdd(Journey.NormalizeEvent(event), now);
    }

    /** reset(): the journey moves into this instance's snapshot. */
    method Reset()
      requires Valid()
      modifies this`restoreJourney, statics
      ensures Valid() && statics.id == old(statics.id)
      ensures restoreJourney == old(statics.journey) && statics.journey == []
    {
      restoreJourney := statics.journey;
      statics.journey := [];
    }

    /** restore(): the snapshot, then whatever was logged since, becomes the
        journey; the snapshot is emptied. */
    method Restore()
      requires Valid()
      modifies this`restoreJourney, statics
      ensures Valid() && statics.id == old(statics.id)
      ensures statics.journey == Journey.Merge(old(restoreJourney), old(statics.journey))
      ensures restoreJourney == []
    {
      var current := statics.journey;
      var restored := restoreJourney;
      if |current| > 0 {
        restored := Journey.Concat(restored, current);
      }
      statics.journey := restored;
      restoreJourney := [];
    }

    /** commit(), up to the hand-off to the journey API: the journey is
        always reset, and `request` is what JourneyApi.fetch makes of the
        pre-reset journey, key or no key. */
    method BeginCommit(now: real) returns (request: Result<ApiBase.FetchParameters, Error>)
      requires Valid()
      modifies this`restoreJourney, statics
      ensures Valid() && statics.id == old(statics.id)
      ensures restoreJourney == old(statics.journey) && statics.journey == []
      ensures request == JourneyApi.Fetch(apiUrl,
                Journey.CommitPayload(statics.id, old(statics.journey), apiKey, now, allowSelfSigned))
    {
      var params := Journey.CommitPayload(statics.id, statics.journey, apiKey, now, allowSelfSigned);
      Reset();
      request := JourneyApi.Fetch(apiUrl, params);
    }

    /** commit(), once the future settles: a failure restores the journey
        and is answered with a Json holding its message. */
    method CompleteCommit(settled: Result<Json, Error>) returns (answer: Json)
      requires Valid()
      modifies this`restoreJourney, statics
      ensures Valid() && statics.id == old(statics.id)
      ensures answer == Recovered(settled)
      ensures settled.Failure? ==>
        statics.journey == Journey.Merge(old(restoreJourney), old(statics.journey)) && restoreJourney == []
      ensures settled.Success? ==>
        statics.journey == old(statics.journey) && restoreJourney == old(restoreJourney)
    {
      match settled {
        case Success(json) =>
          answer := json;
        case Failure(e) =>
          Restore();
          answer := Json(e.Message());
      }
    }

    /** deanonymize(person): changes nothing; `request` is what
        DeanonymizeApi.fetch makes of the payload, and the caller's answer is
        the delivered Json, or one holding the failure's message. */
    method Deanonymize(person: Record, now: real, delivered: Result<Json, Error>)
      returns (request: Result<ApiBase.FetchParameters, Error>, answer: Json)
      ensures request == DeanonymizeApi.Fetch(apiUrl,
                Journey.DeanonymizePayload(statics.id, person, apiKey, now, allowSelfSigned))
      ensures answer == Recovered(ApiBase.Settle(request, delivered))
    {
      request := DeanonymizeApi.Fetch(apiUrl,
        Journey.DeanonymizePayload(statics.id, person, apiKey, now, allowSelfSigned));
      answer := Recovered(ApiBase.Settle(request, delivered));
    }

    function SelfSignedAllowed(): bool
      reads this
    {
      allowSelfSigned
    }
  }

  /*** Properties across calls ***/

  /** Without a key, the commit request is rejected before dispatch with
      "No token and authenticated!", whatever was logged. */
  lemma EmptyKeyCommitRejected(apiUrl: string, id: string, journey: seq<Record>, now: real, allowSelfSigned: bool)
    ensures JourneyApi.Fetch(apiUrl, Journey.CommitPayload(id, journey, "", now, allowSelfSigned)) == Failure(ApiBase.NoToken)
  {
    var data := Journey.CommitPayload(id, journey, "", now, allowSelfSigned);
    JourneyApi.ParamsShape(data);
    ApiBase.MissingTokenRejected(JourneyApi.Config(apiUrl), JourneyApi.Params, data);
  }

  /** A commit without a key resets, is rejected, restores the journey
      exactly, and answers with the rejection's message. */
  method CommitWithoutKey(v: View, now: real)
    requires v.Valid() && v.apiKey == ""
    modifies v`restoreJourney, v.statics
    ensures v.statics.journey == old(v.statics.journey) && v.restoreJourney == []
  {
    var before := v.statics.journey;
    var request := v.BeginCommit(now);
    EmptyKeyCommitRejected(v.apiUrl, v.statics.id, before, now, v.allowSelfSigned);
    var answer := v.CompleteCommit(ApiBase.Settle(request, Success(Json(""))));
    assert answer == Json("No token and authenticated!");
  }

  /** Two instances with different keys share one journey: what one logs,
      the other commits. */
  method SharedJourney(a: View, b: View, page: string, now: real)
    requires a.statics == b.statics && a.Valid() && b.Valid()
    modifies a.statics
    ensures b.statics.journey == Journey.Append(old(a.statics.journey), Journey.PageViewRecord(page), now)
  {
    a.PageView(page, now);
  }
}

=== FILE: wrappers.dfy ===
/** Option and Result, the failure-compatible wrappers used throughout the model.
    A `Result` stands for a Java call that either returns a value or throws
    (or, for a CompletableFuture, completes exceptionally). */
module Wrappers {

  datatype Option<+T> = None | Some(value: T) {

    /** The value held, or `default` when there is none. */
    function GetOr(default: T): T {
      if Some? then value else default
    }
  }

  datatype Result<+T, +E> = Success(value: T) | Failure(error: E) {

    predicate IsFailure() {
      Failure?
    }

    function PropagateFailure<U>(): Result<U, E>
      requires Failure?
    {
      Failure(error)
    }

    function Extract(): T
      requires Success?
    {
      value
    }
  }
}

=== FILE: xenon.dfy ===
/** Xenon: the SDK entry point. Its id, journey and settings are static, so
    every instance reads and writes the same values; only the snapshot taken
    by reset() belongs to the instance.

    The static fields live in one `Statics` object that every instance
    refers to. The clock is a `now` parameter (seconds as a double), and the
    random UUID drawn at class load is the `id` the statics start with. */
module XenonSdk {
  import opened Wrappers
  import opened JsonData
  import Journey
  import ApiBase
  import JourneyApi
  import DeanonymizeApi

  const DefaultApiUrl := "https://app.xenonview.com"
  const NoKey := Thrown("API Key not set.")

  /** The static fields of Xenon. */
  class Statics {
    var id: string
    var journey: seq<Record>
    var apiUrl: string
    var apiKey: string
    var allowSelfSigned: bool

    predicate Valid()
      reads this
    {
      Journey.AllLogged(journey)
    }

    /** Class initialisation; `id` is the UUID drawn when the class loads. */
    constructor(id: string)
      ensures this.id == id && journey == [] && apiUrl == DefaultApiUrl
      ensures apiKey == "" && !allowSelfSigned
      ensures Valid()
    {
      this.id := id;
      journey := [];
      apiUrl := DefaultApiUrl;
      apiKey := "";
      allowSelfSigned := false;
    }
  }

  /** Everything but the journey is as before. */
  twostate predicate SettingsKept(s: Statics)
    reads s
  {
    s.id == old(s.id) && s.apiUrl == old(s.apiUrl) && s.apiKey == old(s.apiKey)
    && s.allowSelfSigned == old(s.allowSelfSigned)
  }

  /** The counter journeyAdd writes into a repeated record: its count (1 when
      absent) read as a Java int, plus one with 32-bit wrap-around. */
  function Bump(stamped: Record): (r: Result<Record, Error>)
    ensures r.Failure? <==> "count" in stamped && !stamped["count"].Num?
    ensures r.Failure? ==> r.error == WrongType("count", "int")
    ensures r.Success? ==> r.value.Keys == stamped.Keys + {"count"}
    ensures r.Success? ==> forall k :: k in stamped && k != "count" ==> r.value[k] == stamped[k]
    ensures r.Success? ==> r.value["count"].Num? && IntMin as real <= r.value["count"].n <= IntMax as real
  {
    var count :- if "count" in stamped then GetInt(stamped, "count") else Success(1);
    Success(stamped["count" := Num(Wrap32(count + 1) as real)])
  }

  /** A first repeat counts 2, a counted repeat goes one up, and the counter
      wraps from the largest int to the smallest. */
  lemma BumpCounts(stamped: Record, k: int)
    requires IntMin <= k < IntMax
    ensures "count" !in stamped ==> Bump(stamped) == Success(stamped["count" := Num(2.0)])
    ensures Bump(stamped["count" := Num(k as real)]) == Success(stamped["count" := Num((k + 1) as real)])
    ensures Bump(stamped["count" := Num(IntMax as real)]) == Success(stamped["count" := Num(IntMin as real)])
  {
    var s := stamped["count" := Num(k as real)];
    assert GetInt(s, "count") == Success(k);
    assert s["count" := Num((k + 1) as real)] == stamped["count" := Num((k + 1) as real)];
    var t := stamped["count" := Num(IntMax as real)];
    assert GetInt(t, "count") == Success(IntMax);
    assert t["count" := Num(IntMin as real)] == stamped["count" := Num(IntMin as real)];
  }

  /** Two identical page views keep one stored record, and that record never
      gets a count: the count of 2 is written on the dropped copy. */
  lemma RepeatCountNeverStored(page: string, first: real, second: real)
    ensures var r := Journey.PageViewRecord(page);
      var once := Journey.Append([], r, first);
      && once == [Journey.Stamp(r, first)]
      && Journey.Append(once, r, second) == once
      && "count" !in once[0]
      && Bump(Journey.Stamp(r, second)) == Success(Journey.Stamp(r, second)["count" := Num(2.0)])
  {
    var r := Journey.PageViewRecord(page);
    Journey.AppendToEmpty(r, first);
    Journey.RepeatIsDropped([Journey.Stamp(r, first)], r, second);
    BumpCounts(Journey.Stamp(r, second), 0);
  }

  /** Whether `content`, stamped at `now`, repeats the tail of `journey`. */
  predicate Repeats(journey: seq<Record>, content: Record, now: real)
    requires "action" in content
    requires journey != [] ==> "action" in Journey.Last(journey)
  {
    journey != [] && Journey.IsRepeat(Journey.Last(journey), Journey.Stamp(content, now))
  }

  class Xenon {
    const statics: Statics
    /** The journey saved by the last reset(), until restore() consumes it. */
    var restoreJourney: seq<Record>

    predicate Valid()
      reads this, statics
    {
      statics.Valid() && Journey.AllLogged(restoreJourney)
    }

    /** Xenon(), and Xenon(journeyApi): touches none of the statics. */
    constructor(statics: Statics)
      requires statics.Valid()
      ensures this.statics == statics && restoreJourney == []
      ensures Valid()
    {
      this.statics := statics;
      restoreJourney := [];
    }

    /** Xenon(apiKey[, apiUrl][, allowSelfSigned]) and the overloads that also
        take an apiUrl: sets the shared key, puts the shared url back to the
        default unless one is given, and sets the shared self-signed flag only
        when one is given. */
    constructor WithKey(statics: Statics, apiKey: string, apiUrl: Option<string>, allowSelfSigned: Option<bool>)
      requires statics.Valid()
      modifies statics
      ensures this.statics == statics && restoreJourney == []
      ensures statics.apiKey == apiKey
      ensures statics.apiUrl == (if apiUrl.Some? then apiUrl.value else DefaultApiUrl)
      ensures statics.allowSelfSigned == (if allowSelfSigned.Some? then allowSelfSigned.value else old(statics.allowSelfSigned))
      ensures statics.id == old(statics.id) && statics.journey == old(statics.journey)
      ensures Valid()
    {
      this.statics := statics;
      restoreJourney := [];
      new;
      statics.apiKey := apiKey;
      statics.apiUrl := DefaultApiUrl;
      if apiUrl.Some? {
        statics.apiUrl := apiUrl.value;
      }
      if allowSelfSigned.Some? {
        statics.allowSelfSigned := allowSelfSigned.value;
      }
    }

    /** Xenon(apiKey, journeyApi): sets the shared key only; unlike
        Xenon(apiKey), the shared url and flag keep their values. */
    constructor WithKeyAndApi(statics: Statics, apiKey: string)
      requires statics.Valid()
      modifies statics
      ensures this.statics == statics && restoreJourney == []
      ensures statics.apiKey == apiKey
      ensures statics.apiUrl == old(statics.apiUrl) && statics.allowSelfSigned == old(statics.allowSelfSigned)
      ensures statics.id == old(statics.id) && statics.journey == old(statics.journey)
      ensures Valid()
    {
      this.statics := statics;
      restoreJourney := [];
      new;
      statics.apiKey := apiKey;
    }

    function Id(): string
      reads statics
    {
      statics.id
    }

    /** id(value): replaces the shared id and returns it. */
    method SetId(id: string) returns (r: string)
      modifies statics
      ensures r == id && statics.id == id
      ensures statics.journey == old(statics.journey) && statics.apiUrl == old(statics.apiUrl)
      ensures statics.apiKey == old(statics.apiKey) && statics.allowSelfSigned == old(statics.allowSelfSigned)
    {
      statics.id := id;
      r := statics.id;
    }

    /** init(apiKey, apiUrl): an empty argument leaves its setting alone. */
    method Init(apiKey: string, apiUrl: string)
      modifies statics
      ensures statics.apiUrl == (if |apiUrl| > 0 then apiUrl else old(statics.apiUrl))
      ensures statics.apiKey == (if |apiKey| > 0 then apiKey else old(statics.apiKey))
      ensures statics.id == old(statics.id) && statics.journey == old(statics.journey)
      ensures statics.allowSelfSigned == old(statics.allowSelfSigned)
    {
      if |apiUrl| > 0 {
        statics.apiUrl := apiUrl;
      }
      if |apiKey| > 0 {
        statics.apiKey := apiKey;
      }
    }

    /** init(apiKey): the url is never touched. */
    method InitKey(apiKey: string)
      modifies statics
      ensures statics.apiUrl == old(statics.apiUrl)
      ensures statics.apiKey == (if |apiKey| > 0 then apiKey else old(statics.apiKey))
      ensures statics.id == old(statics.id) && statics.journey == old(statics.journey)
      ensures statics.allowSelfSigned == old(statics.allowSelfSigned)
    {
      Init(apiKey, "");
    }

    /** journeyAdd(content) at clock reading `now`. The journey changes as
        Journey.Append says. `outcome` is the caller's record as the call
        leaves it: stamped, and on a repeat also counted. That count lands on
        the record that is dropped, never on the journey. A repeat whose
        count is not a number fails, and then the journey is unchanged. */
    method JourneyAdd(content: Record, now: real) returns (outcome: Result<Record, Error>)
      requires Valid() && Journey.Entry(content)
      modifies statics
      ensures Valid() && SettingsKept(statics)
      ensures outcome == (if Repeats(old(statics.journey), content, now)
                          then Bump(Journey.Stamp(content, now))
                          else Success(Journey.Stamp(content, now)))
      ensures statics.journey == Journey.Append(old(statics.journey), content, now)
    {
      var journey := statics.journey;
      var stamped := Journey.Stamp(content, now);
      if |journey| > 0 {
        var last := journey[|journey| - 1];
        if Journey.SameKind(last, stamped) {
          if last["action"] != stamped["action"] {
            journey := journey + [stamped];
          } else {
            outcome := Bump(stamped);
            return;
          }
        } else {
          journey := journey + [stamped];
        }
      } else {
        journey := [stamped];
      }
      statics.journey := journey;
      outcome := Success(stamped);
    }

    /** pageView(page) */
    method PageView(page: string, now: real)
      requires Valid()
      modifies statics
      ensures Valid() && SettingsKept(statics)
      ensures statics.journey == Journey.Append(old(statics.journey), Journey.PageViewRecord(page), now)
    {
      var _ := JourneyAdd(Journey.PageViewRecord(page), now);
    }

    /** funnel(stage, action) */
    method Funnel(stage: string, action: string, now: real)
      requires Valid()
      modifies statics
      ensures Valid() && SettingsKept(statics)
      ensures statics.journey == Journey.Append(old(statics.journey), Journey.FunnelRecord(stage, action), now)
    {
      var _ := JourneyAdd(Journey.FunnelRecord(stage, action), now);
    }

    /** outcome(outcome, action) */
    method Outcome(outcome: string, action: string, now: real)
      requires Valid()
      modifies statics
      ensures Valid() && SettingsKept(statics)
      ensures statics.journey == Journey.Append(old(statics.journey), Journey.OutcomeRecord(outcome, action), now)
    {
      var _ := JourneyAdd(Journey.OutcomeRecord(outcome, action), now);
    }

    /** event(event): the normalised event is added; `outcome` is the event
        as the call leaves it. */
    method Event(event: Record, now: real) returns (outcome: Result<Record, Error>)
      requires Valid()
      modifies statics
      ensures Valid() && SettingsKept(statics)
      ensures statics.journey == Journey.Append(old(statics.journey), Journey.NormalizeEvent(event), now)
      ensures outcome.Failure? <==> Repeats(old(statics.journey), Journey.NormalizeEvent(event), now)
                                    && "count" in event && !event["count"].Num?
    {
      outcome := JourneyAdd(Journey.NormalizeEvent(event), now);
    }

    /** reset(): the journey moves into this instance's snapshot. */
    method Reset()
      requires Valid()
      modifies this, statics
      ensures Valid() && SettingsKept(statics)
      ensures restoreJourney == old(statics.journey) && statics.journey == []
    {
      restoreJourney := statics.journey;
      statics.journey := [];
    }

    /** restore(): the snapshot, then whatever was logged since, becomes the
        journey; the snapshot is emptied. */
    method Restore()
      requires Valid()
      modifies this, statics
      ensures Valid() && SettingsKept(statics)
      ensures statics.journey == Journey.Merge(old(restoreJourney), old(statics.journey))
      ensures restoreJourney == []
    {
      var current := statics.journey;
      var restored := restoreJourney;
      if |current| > 0 {
        restored := Journey.Concat(restored, current);
      }
      statics.journey := restored;
      restoreJourney := [];
    }

    /** commit(), up to the hand-off to the journey API: without a key it
        fails with "API Key not set." and changes nothing; otherwise the
        journey is reset and `request` is what JourneyApi.fetch makes of the
        pre-reset journey. */
    method BeginCommit(now: real) returns (request: Result<ApiBase.FetchParameters, Error>)
      requires Valid()
      modifies this, statics
      ensures Valid() && SettingsKept(statics)
      ensures old(statics.apiKey) == "" ==>
        && request == Failure(NoKey)
        && statics.journey == old(statics.journey) && restoreJourney == old(restoreJourney)
      ensures old(statics.apiKey) != "" ==>
        && restoreJourney == old(statics.journey) && statics.journey == []
        && request == JourneyApi.Fetch(statics.apiUrl,
             Journey.CommitPayload(statics.id, old(statics.journey), statics.apiKey, now, statics.allowSelfSigned))
    {
      var params := Journey.CommitPayload(statics.id, statics.journey, statics.apiKey, now, statics.allowSelfSigned);
      if statics.apiKey == "" {
        return Failure(NoKey);
      }
      Reset();
      request := JourneyApi.Fetch(statics.apiUrl, params);
    }

    /** commit(), once the future settles: a failure restores the journey and
        is passed on; a success leaves everything as it is. */
    method CompleteCommit(settled: Result<Json, Error>) returns (r: Result<Json, Error>)
      requires Valid()
      modifies this, statics
      ensures Valid() && SettingsKept(statics)
      ensures r == settled
      ensures settled.Failure? ==>
        statics.journey == Journey.Merge(old(restoreJourney), old(statics.journey)) && restoreJourney == []
      ensures settled.Success? ==>
        statics.journey == old(statics.journey) && restoreJourney == old(restoreJourney)
    {
      if settled.Failure? {
        Restore();
      }
      r := settled;
    }

    /** deanonymize(person): changes nothing; without a key it fails with
        "API Key not set.", otherwise `request` is what DeanonymizeApi.fetch
        makes of the id, the person and the settings. */
    method Deanonymize(person: Record, now: real) returns (request: Result<ApiBase.FetchParameters, Error>)
      ensures statics.apiKey == "" ==> request == Failure(NoKey)
      ensures statics.apiKey != "" ==>
        request == DeanonymizeApi.Fetch(statics.apiUrl,
          Journey.DeanonymizePayload(statics.id, person, statics.apiKey, now, statics.allowSelfSigned))
    {
      var params := Journey.DeanonymizePayload(statics.id, person, statics.apiKey, now, statics.allowSelfSigned);
      if statics.apiKey == "" {
        return Failure(NoKey);
      }
      request := DeanonymizeApi.Fetch(statics.apiUrl, params);
    }

    function SelfSignedAllowed(): bool
      reads statics
    {
      statics.allowSelfSigned
    }
  }

  /*** Properties across calls ***/

  /** With a key set, the commit request is never rejected before dispatch:
      it posts {uuid, timestamp, journey} to {apiUrl}/journey as the named
      journey request, with the key as bearer token and the self-signed flag
      passed to the fetcher. */
  lemma CommitRequestShape(apiUrl: string, id: string, journey: seq<Record>, key: string, now: real, allowSelfSigned: bool)
    requires key != ""
    ensures var request := JourneyApi.Fetch(apiUrl, Journey.CommitPayload(id, journey, key, now, allowSelfSigned));
      && request.Success?
      && request.value.url == apiUrl + "/journey"
      && request.value.httpMethod == "POST"
      && request.value.ignoreCertificateErrors == Some(allowSelfSigned)
      && request.value.body == Some(ApiBase.Body(Some("ApiJourney"),
           map["uuid" := Str(id), "timestamp" := Num(now), "journey" := Journey.JourneyValue(journey)]))
      && request.value.requestHeaders == ApiBase.DefaultHeaders["authorization" := "Bearer " + key]
  {
    var data := Journey.CommitPayload(id, journey, key, now, allowSelfSigned);
    JourneyApi.ParamsShape(data);
    ApiBase.FetchSucceedsIff(JourneyApi.Config(apiUrl), JourneyApi.Params, data);
    JourneyApi.FetchShape(apiUrl, data);
    assert JourneyApi.Params(data).value ==
      map["uuid" := Str(id), "timestamp" := Num(now), "journey" := Journey.JourneyValue(journey)];
  }

  /** With a key set, a deanonymize request is never rejected before
      dispatch and posts exactly {uuid, timestamp, person}. */
  lemma DeanonymizeRequestShape(apiUrl: string, id: string, person: Record, key: string, now: real, allowSelfSigned: bool)
    requires key != ""
    ensures var request := DeanonymizeApi.Fetch(apiUrl, Journey.DeanonymizePayload(id, person, key, now, allowSelfSigned));
      && request.Success?
      && request.value.url == apiUrl + "/deanonymize"
      && request.value.ignoreCertificateErrors == Some(allowSelfSigned)
      && request.value.body == Some(ApiBase.Body(Some("ApiDeanonymize"),
           map["uuid" := Str(id), "timestamp" := Num(now), "person" := Obj(person)]))
      && request.value.requestHeaders == ApiBase.DefaultHeaders["authorization" := "Bearer " + key]
  {
    var data := Journey.DeanonymizePayload(id, person, key, now, allowSelfSigned);
    DeanonymizeApi.ParamsShape(data);
    ApiBase.FetchSucceedsIff(DeanonymizeApi.Config(apiUrl), DeanonymizeApi.Params, data);
    DeanonymizeApi.FetchShape(apiUrl, data);
    assert DeanonymizeApi.Params(data).value ==
      map["uuid" := Str(id), "timestamp" := Num(now), "person" := Obj(person)];
  }

  /** An id set through one instance is the id of every other instance. */
  method SharedId(a: Xenon, b: Xenon, id: string)
    requires a.statics == b.statics
    modifies a.statics
    ensures b.Id() == id
  {
    var _ := a.SetId(id);
  }

  /** A commit that fails leaves the journey as if no commit had happened,
      including what was logged while the request was in flight, as long
      as the first record logged in flight does not repeat the saved tail. */
  method FailedCommitKeepsJourney(x: Xenon, now: real, page: string, later: real, error: Error)
    requires x.Valid() && x.statics.apiKey != ""
    requires !Repeats(x.statics.journey, Journey.PageViewRecord(page), later)
    modifies x, x.statics
    ensures x.statics.journey == Journey.Append(old(x.statics.journey), Journey.PageViewRecord(page), later)
  {
    var before := x.statics.journey;
    var request := x.BeginCommit(now);
    x.PageView(page, later);
    var r := x.CompleteCommit(Failure(error));
    Journey.NonRepeatIsAppended(before, Journey.PageViewRecord(page), later);
  }
}
